=== FILE: README.md ===
# Phone-masking service: ingestion and mapping consistency

This Dafny project models the core of a phone-masking service. Every real
phone number maps to exactly one generated "fake" number. The telephony side
asks the service to translate between the two.

The model covers four parts:

- **Phone helpers** (`app/utils.py`, module `Utils`; shared string helpers in
  module `Text`):
  - phone normalisation and validation;
  - the fake-number generator, with its 1000-attempt budget;
  - the line-by-line phone-list parser;
  - the upload file-extension check.
- **The mapping store** (`app/models.py`, module `MappingStore`): an abstract
  in-memory table.
  - Its `real_phone` and `fake_phone` columns are each UNIQUE.
  - Each operation takes a `Conn` value. It says whether the database can be
    reached and whether a statement fails for a reason other than a UNIQUE
    violation.
  - Batch INSERTs run row by row. A UNIQUE violation is therefore derived from
    the data, never assumed.
- **The bulk import worker** (`import_worker.py`, module `ImportWorker`):
  - the strict, all-or-nothing row validator of `process_file`;
  - the whole-table replace;
  - the key=value marker file of `write_marker`;
  - the single-slot `ImportState`;
  - one `scan_once` cycle, as a transition over an abstract inbox, marker
    directory, archive, store and status slot.
- **The web handlers** (`app/routes.py`, module `Routes`):
  - the core of `upload_file`: it sorts uploaded numbers into existing and new,
    generates fresh fake numbers, batch-inserts them and reports the counts;
  - the lookups `lookup_real` and `lookup_fake`, which normalise their input.

Some inputs from outside the service become plain parameters:

- The random digits of the generator are a supplied block of candidate suffixes.
- Clock readings are opaque texts.
- The file system is a set of maps from file name to content.
- The database is a value of type `Store`.

Wrappers (`Option`, `Result`) live in `wrappers.dfy`.

## Model

| member | source | states |
|---|---|---|
| `Text.Strip` | app/utils.py:88 | The stripped text is no longer than the input and neither starts nor ends with whitespace. |
| `Text.StripShape` | app/utils.py:88 | The input is exactly what strip cut off in front, then the stripped text, then what it cut off at the back. |
| `Text.StripRemovesSpace` | app/utils.py:88 | Everything strip removes, at either end, is whitespace. |
| `Text.StripBlank` | app/utils.py:88-91 | A line strips to nothing exactly when it is all whitespace, so those are the lines the parser skips. |
| `Text.Lower` | app/utils.py:121 | Lower-casing keeps the length and maps every character on its own. Upper-case ASCII letters become lower case. |
| `Text.NatToString` | import_worker.py:210-211 | The rendered counter is a non-empty digit string with no leading zero whose decimal value is the counter. |
| `Text.SplitJoin` | import_worker.py:217 | Splitting newline-joined lines on the newline gives the lines back when none contains a newline. |
| `Utils.NormalizePhone` | app/utils.py:36-46 | The normal form is made only of digits and is never longer than the input. |
| `Utils.NormalizeKeepsDigits` | app/utils.py:46 | Every digit of the input occurs in the normal form as often as in the input. No other character occurs. |
| `Utils.NormalizeAppend` | app/utils.py:46 | Normalisation distributes over concatenation, so the digits keep their original order. |
| `Utils.NormalizeIdempotent` | app/utils.py:46 | Normalising twice is the same as normalising once. |
| `Utils.NormalizeOfDigits` | app/utils.py:46 | A digit-only string is its own normal form. |
| `Utils.NormalizeNoDigits` | app/utils.py:46 | A string without digits normalises to the empty string. |
| `Utils.NormalizeStrip` | app/utils.py:88-94 | Stripping whitespace before normalising does not change the normal form. |
| `Utils.ValidateIgnoresFormatting` | app/utils.py:49-69 | A number is valid exactly when its normal form has 10 to 15 digits. Validating the normal form gives the same verdict as validating the raw text. |
| `Utils.StrippedCellValidity` | import_worker.py:169-179 | The importer strips a cell before normalising and validating it. This gives the same verdict as validating the raw cell, and a blank cell is never valid. |
| `Utils.FirstFresh` | app/utils.py:25-31 | The chosen attempt is the first whose candidate is not in the existing set. Every earlier candidate is in it. None means every candidate is taken. |
| `Utils.GenerateFakePhone` | app/utils.py:5-33 | A generated number is not in the existing set. It is the prefix followed by max(0, `length` − `len(prefix)`) digits, none when the prefix is already that long. It is the first free candidate among the 1000 attempts. An error is returned exactly when all 1000 candidates are taken. |
| `Utils.GeneratedFakeIsCanonical` | app/utils.py:18-28 | With the configured length 15 and prefix "7", a generated number is a valid 15-digit number starting with 7. |
| `Utils.LinePhone` | app/utils.py:86-98 | A line yields a number only when that number is digit-only and valid. |
| `Utils.LinePhoneExact` | app/utils.py:88-98 | A line yields its normal form exactly when that form is valid, and yields nothing otherwise. |
| `Utils.CollectPhones` | app/utils.py:82-98 | The collected numbers are all digit-only and valid, and there are no more of them than lines. |
| `Utils.CollectPhonesExact` | app/utils.py:86-98 | A number is collected exactly when some line normalises to it and it is valid. |
| `Utils.BlankLineIgnored` | app/utils.py:88-91 | Inserting a line that is blank after stripping anywhere in the file does not change the collected numbers. |
| `Utils.Dedup` | app/utils.py:105 | The result has no repeats and holds exactly the elements of the input. |
| `Utils.ParseCsvPhones` | app/utils.py:72-107 | The parsed list has no duplicates, and every element is digit-only and valid. A number is in it exactly when some line normalises to it and it is valid. An unreadable file yields the empty list. |
| `Utils.LastDot` | app/utils.py:120-121 | The split point of `rsplit('.', 1)` is a '.', and no '.' follows it. There is none exactly when the name has no '.'. |
| `Utils.AllowedFile` | app/utils.py:110-121 | A name is accepted exactly when it has a last '.' and the text after it, lower-cased, is an allowed extension. |
| `MappingStore.AppendUnique` | app/models.py:38-46 | Two row sequences together satisfy both UNIQUE constraints exactly when each does on its own and they share no real and no fake number. |
| `MappingStore.InsertRows` | app/models.py:100-103 | The INSERTs of one `executemany` all succeed exactly when the grown table still satisfies the UNIQUE constraints. Then the rows are appended in order. |
| `MappingStore.ReplaceAll` | app/models.py:218-251 | The replace either succeeds with `(True, None, len(ms))` and leaves exactly `ms` in the table, or reports an error with count 0 and leaves the store unchanged. It succeeds exactly when the database answers and `ms` satisfies the UNIQUE constraints. No connection gives the no-connection error. The UNIQUE invariant is kept. |
| `MappingStore.ReplaceThenList` | app/models.py:218-251 | Listing after a replace gives exactly the rows handed to a successful replace, or the old rows after a failed one. |
| `MappingStore.InsertBatch` | app/models.py:92-112 | A batch insert appends all its rows or none of them. On a consistent table it succeeds exactly when the database answers, the batch is consistent, and the batch shares no real or fake number with the table. The UNIQUE invariant is kept. |
| `MappingStore.FindByFake` | app/models.py:122-128 | A row is found exactly when the fake number is in the table, and the row found carries it. |
| `MappingStore.FindByReal` | app/models.py:144-150 | A row is found exactly when the real number is in the table, and the row found carries it. |
| `MappingStore.FakeRowIsUnique` | app/models.py:41 | Under the UNIQUE constraints a fake number identifies at most one row. |
| `MappingStore.RealRowIsUnique` | app/models.py:40 | Under the UNIQUE constraints a real number identifies at most one row. |
| `MappingStore.GetRealPhone` | app/models.py:114-134 | A returned real number is paired with the fake one in the table. A result comes back exactly when the database answers and the fake number is present. On a consistent table the result is the real number of the pair. |
| `MappingStore.GetFakePhone` | app/models.py:136-156 | This is the symmetric lookup from a real number to its fake one. |
| `MappingStore.GetAllMappings` | app/models.py:158-175 | The listing holds exactly the table's rows when the database answers, and is empty otherwise. |
| `MappingStore.ClearAll` | app/models.py:199-216 | A clear empties the table and keeps the call log. It succeeds exactly when the database answers, and otherwise nothing changes. |
| `MappingStore.LogCall` | app/models.py:177-197 | A call log appends exactly one entry and succeeds exactly when the database answers. Otherwise nothing changes. |
| `ImportWorker.RowFault` | import_worker.py:166-184 | Every error a row raises is one of the six row errors, and it names the line the row was checked at. |
| `ImportWorker.RowFaultExact` | import_worker.py:166-184 | A row raises nothing exactly when it has two valid columns and repeats no real or fake number already seen. Any error it raises names its own line. |
| `ImportWorker.AcceptableExact` | import_worker.py:161-188 | The row loop runs through the rows exactly when every row is well formed and the pairs satisfy both UNIQUE constraints. The row-by-row seen-sets check amounts to a whole-file uniqueness check. |
| `ImportWorker.CheckRows` | import_worker.py:165-188 | The loop succeeds exactly when the rows are acceptable, and then yields one pair per row in order. An error names a line within the rows checked. |
| `ImportWorker.ScanClear` | import_worker.py:165-188 | For any per-row check, the row loop completes exactly when every row passes the check against the numbers seen before it, and it then yields one pair per row in order. |
| `ImportWorker.ScanStops` | import_worker.py:165-184 | For any per-row check, a failing loop stopped at a row that the check rejects with the reported error, and every row before it passed. |
| `ImportWorker.StopsScan` | import_worker.py:165-184 | For any per-row check, when the rows before row j pass and row j is rejected with e, the loop fails with exactly e, whatever the later rows hold. |
| `ImportWorker.CheckRowsIsScan` | import_worker.py:165-188 | The worker's row loop is this generic loop run with the worker's own row checks. |
| `ImportWorker.ClearAcceptable` | import_worker.py:165-188 | Passing the worker's row checks one row at a time, against the numbers seen so far, is the same as the rows being acceptable. |
| `ImportWorker.RowFaultOrder` | import_worker.py:166-184 | The row checks run in a fixed order, and the first that fails decides the error. A short row gives `TooFewColumns` and a blank cell gives `BlankValue`. An invalid real number gives `InvalidReal` whatever the fake cell holds. An invalid fake number gives `InvalidFake`. A repeated real number gives `DuplicateReal` even when the fake one is repeated too, and only then is a repeated fake number reported as `DuplicateFake`. |
| `ImportWorker.FaultIndexOf` | import_worker.py:165-184 | The error a row raises names the line the row was checked at. Subtracting the start line from it recovers the row's index. |
| `ImportWorker.CheckRowsFirstFault` | import_worker.py:165-184 | The reported error is the one the first failing row raises against the numbers of the rows before it. All those earlier rows pass, and the row's index is the error's line minus the start line. |
| `ImportWorker.ReportedFaultIndex` | import_worker.py:165-184 | The line an error names belongs to the first row that fails its checks. |
| `ImportWorker.ValidateRows` | import_worker.py:161-188 | Validation of the data rows succeeds exactly when they are consistent. It then yields one pair per data row, and the pairs satisfy both UNIQUE constraints. Error lines are numbered from 2. |
| `ImportWorker.FirstFaultyRowReported` | import_worker.py:165-184 | When the rows before row j pass and row j raises e, validation fails with exactly e. Later rows do not matter. |
| `ImportWorker.DuplicateRealReportedAtRepeat` | import_worker.py:181-182 | A repeated real number fails the file at the line of its first repeat. There is no dedup-and-continue. |
| `ImportWorker.ProcessFile` | import_worker.py:138-194 | Import succeeds exactly when the file is within the size limit (equal is allowed), readable, has a data row after the header, has consistent rows, and the replace succeeds. On success the table holds exactly the file's pairs, and both counts equal the number of data rows. On failure the store is unchanged. Each early error is checked in order: missing, too large, unreadable, empty, no data after the header. A consistent file whose replace meets a database that does not answer fails with `StoreFailed`, with `NoConnection` as the cause when there is no connection. A row error is the validator's error, so the store is only touched after every row has passed. |
| `ImportWorker.InitialState` | import_worker.py:42-44 | A fresh state holds no report, so `snapshot` returns None. |
| `ImportWorker.SetReport` | import_worker.py:42-48 | After `set`, `snapshot` returns the report just set. |
| `ImportWorker.MarkerFields` | import_worker.py:201-213 | The marker lines are `file`, `success`, `started_at`, `finished_at` and `duration_sec`, in that order. They are followed by `total_rows` and `inserted` on success, or by `error` on failure. |
| `ImportWorker.FieldsRoundTrip` | import_worker.py:215-217 | Key=value lines joined by newlines read back to the same fields when keys are plain and values are single-line. |
| `ImportWorker.WriteMarker` | import_worker.py:196-217 | Only the marker named `.OK` or `.fail` after the outcome changes, and only when the write does not fail. The text written there reads back to the report's fields, as long as no value spans several lines. Every other marker is untouched. |
| `ImportWorker.MarkerRoundTrip` | import_worker.py:196-217 | A marker file reads back to exactly the fields written, as long as no value spans several lines. |
| `ImportWorker.ScanOnce` | import_worker.py:76-136 | With no target, or with a claim that loses the race, the cycle changes nothing. Otherwise it runs exactly when the claim succeeds. The report is `Succeeded(inserted, total_rows)` with the counts `process_file` returned, or `Failed` with the error it raised. Its file name is the target's, and its start, finish and duration texts are the clock's readings. The store is what `process_file` left. The status slot holds the report. The marker named `.OK` or `.fail` after the outcome holds the report's text, unless writing it fails. The target leaves the inbox and goes to the timestamped archive name, unless the move fails, in which case it stays as `.processing`. Other inbox files are untouched. |
| `ImportWorker.FirstRunPublishes` | import_worker.py:42-48 | Starting from a fresh state, a cycle that does not run leaves `snapshot` returning None. The first cycle that runs publishes its own report. |
| `ImportWorker.ScanConsumesTarget` | import_worker.py:76-85 | After a cycle that ran, the next cycle finds nothing to do, whatever its environment. |
| `ImportWorker.ScanIsAtomic` | import_worker.py:93-136 | A cycle leaves the table exactly as it was, or exactly equal to the pairs of the file it imported successfully. It keeps the UNIQUE constraints and keeps every number a non-empty digit string. |
| `ImportWorker.PairsAreDigits` | import_worker.py:173-188 | Well-formed rows yield pairs of non-empty digit-only numbers. |
| `ImportWorker.ScanMarkerReadsBack` | import_worker.py:106-122 | The marker a cycle writes is named after the outcome and reads back to the report's fields. Its `success` field agrees with the outcome. |
| `ImportWorker.ScanValidFile` | import_worker.py:93-136 | A valid file of n data rows succeeds with `total_rows` and `inserted` both n. The table then holds the file's pairs, the `.OK` marker exists, and the file is archived. |
| `ImportWorker.ScanShortFirstRow` | import_worker.py:111-136 | A first data row with one column fails the cycle with the line-2 error. The table is untouched, the `.fail` marker exists, and the file is still archived. |
| `Routes.Prepare` | app/routes.py:101-110 | With `clear_old`, the table is emptied when the database answers and nothing counts as known. Otherwise the known sets are the table's real and fake numbers, or empty when the listing fails. |
| `Routes.BuildEntries` | app/routes.py:112-137 | There is one entry per parsed number, in order. A number is existing exactly when it is known, and then carries the fake number stored for it. A new number carries a canonical fresh fake. The queued pairs are exactly the new entries' pairs. No queued fake is among the known fakes, and no queued real is among the known reals. |
| `Routes.BuiltMappingsUnique` | app/routes.py:128-132 | Because each generated fake joins the known set before the next generation, the queued pairs satisfy both UNIQUE constraints. They share no real number with the known ones. |
| `Routes.Save` | app/routes.py:139-155 | An empty queue skips the insert. Otherwise the batch insert's failure gives the save error with the store unchanged. On success the counts are `total = len(results)`, `new = len(mappings)` and `existing = total - new`. On a consistent table it succeeds exactly when the queue is empty or the insert can succeed. |
| `Routes.UploadPhones` | app/routes.py:101-155 | An accepted upload reports one entry per parsed number. The table is the prepared table plus the new pairs, and the counts add up. A rejection is a processing or save error and leaves the prepared store. The processing error is returned exactly when the generation loop raises. The call log and the UNIQUE invariant are kept. |
| `Routes.Upload` | app/routes.py:64-160 | A missing file, an empty file name, a non-CSV name and a file with no valid numbers are each rejected with their own error, and the store is untouched. An accepted upload passed the file checks and has one entry per parsed number. Without `clear_old` the table grows by exactly the new pairs. With `clear_old` and a database that answers, the table is exactly the new pairs. |
| `Routes.UploadCounts` | app/routes.py:149-155 | The `new` count is the number of entries marked new. `existing` is the rest. |
| `Routes.UploadStatusAgainstTable` | app/routes.py:116-137 | Take a working database and no clearing. A number is existing exactly when the table holds it, and then carries the fake on its row. A new number gets a canonical fake that the table did not hold. |
| `Routes.UploadNeverCollides` | app/routes.py:139-144 | On a consistent table with a working database, an upload of a parsed list never trips the UNIQUE constraints. It is rejected exactly when the generation loop exhausts the generator. |
| `Routes.GenerateTakesFreshFirst` | app/utils.py:25-31 | When the first candidate of a block of draws is not taken, the generator returns it. |
| `Routes.BuildWithFreshFirst` | app/routes.py:113-136 | When each new number's first candidate is neither known nor the first candidate of another new number, the loop does not raise. Each new number gets its first candidate and is marked new. |
| `Routes.UploadAcceptedWithFreshDraws` | app/routes.py:101-155 | Take a consistent table and a database that answers. If each new number's first candidate is free against the table (or against nothing, with `clear_old`) and distinct from the others', the upload is accepted. Every parsed number gets an entry, and each new number is reported and stored with its first candidate. |
| `Routes.UploadStoresEntries` | app/routes.py:113-144 | After an accepted upload every parsed number sits in the table next to the fake number reported for it. |
| `Routes.UploadOfKnownNumbers` | app/routes.py:116-126 | An upload of numbers already in the table is accepted with every entry existing and `new = 0`. It leaves the store as it was. |
| `Routes.UploadTwiceIsStable` | app/routes.py:101-155 | Uploading the same list again without clearing changes nothing. Every number is existing, with the fake number the first upload reported. |
| `Routes.UploadKeepsDigitTable` | app/routes.py:116-144 | An upload of parsed numbers writes only non-empty digit strings. |
| `Routes.UploadKeepsDigitTableForRequest` | app/routes.py:94-144 | The upload handler as a whole keeps every number in the table a non-empty digit string. |
| `Routes.LookupReal` | app/routes.py:183-213 | A found real number is non-empty and paired in the table with the normalised fake number. On a consistent table with a working database, the stored partner is found. A hit with a working log connection appends exactly one call-log entry. Otherwise the store is unchanged. The mappings never change. |
| `Routes.LookupFake` | app/routes.py:216-243 | This is the symmetric lookup from a real number to its fake one, and it never touches the store. |
| `Routes.LookupIgnoresFormatting` | app/routes.py:195-196 | A formatted number and its normal form get the same answer and the same log entry from both lookups. |
| `Routes.LookupAfterUpload` | app/routes.py:195-204 | After an accepted upload into a consistent table, each reported fake number looks up to its real number and back. |

## Left out

- Some Python behaviour is simplified:
  - `str.isdigit` is modelled for ASCII `0`–`9` only, where Python also accepts other Unicode digits.
  - `str.lower` is modelled for ASCII letters only.
- `Utils.Dedup`: `list(set(...))` leaves the order to Python's set iteration. The model keeps first occurrences in input order, and no contract depends on the order.
- `MappingStore.GetAllMappings`: states the listing as a multiset. The `ORDER BY created_at DESC` order is not modelled because creation timestamps are not modelled.
- `Routes.BuildEntries`: an error is characterised only as "some number was new". The model does not say that the generator ran out of candidates for the first such number.
- `Routes.Upload`: the only exception modelled inside the try-block is the generator running out.
  - A failing `file.save` or `os.remove` is file I/O and is not modelled.
  - `secure_filename` and the upload folder are file I/O and are not modelled.
  - The uploaded file's removal is also left out.
  - A file that cannot be read back as UTF-8 is the `None` line list, which `parse_csv_phones` turns into no numbers.
- Upload uses one connection state per stage: clear or list, look up, insert. The model does not distinguish individual calls within the lookup stage.
- Error messages are rendered in English. The line numbers and raw values they carry are kept. The JSON bodies and HTTP status codes are the `Rejected`/`Accepted` and `Found`/`NotFound` values.
- The lookups treat an empty stored number as not found, as Python's truthiness test does.
- `csv.reader` tokenisation and UTF-8 decoding are not modelled. The importer receives the file's rows already split, or `None` when they cannot be read.
- Other file operations are modelled abstractly:
  - `Path.rename`, `shutil.move`, the marker write and `mkdir` are modelled as maps plus "fails" flags.
  - A rename that raises something other than `FileNotFoundError` ends the cycle with no change.
  - A `.processing` file left behind by a failed move is never picked up again, because the code only looks for the exact target name. A restarted worker would not rediscover it by name matching.
- `ImportState`'s lock, `run_forever`, `main` and the status server are concurrency, looping and HTTP plumbing, and are not modelled. The state is a single slot.
- `datetime`, `duration_sec` (a float) and logging are not modelled. Timestamps, the duration and the archive stamp are opaque texts.
- `write_marker` is not given its own `success` argument. The model derives the flag from the report's outcome, which `scan_once` always keeps consistent with it.
- `MAX_FILE_BYTES` (16 MiB by default) is a parameter of the import rather than a value read from the environment.
- The rest of the application is outside the core:
  - the login and session handling, `get_mappings`, `export_csv`, `create_tables` and `insert_mapping`;
  - `config.py` beyond its constants;
  - `static/script.js`, `app/__init__.py` and `run.py`.

=== FILE: import_worker.dfy ===
/** The bulk import worker of import_worker.py: the strict row validator and
    whole-table replace of `process_file`, the key=value marker file of
    `write_marker`, the single-slot `ImportState`, and one `scan_once` cycle
    as a transition over an abstract inbox/archive, store and status slot. */
module ImportWorker {
  import opened Wrappers
  import opened Text
  import opened Utils
  import opened MappingStore

  /** TARGET_FILE_NAME and the names derived from it. */
  const TargetFileName: string := "GGS_all_phones.csv"
  const TargetStem: string := "GGS_all_phones"
  const TargetSuffix: string := ".csv"
  const ProcessingName: string := TargetFileName + ".processing"

  /** One record of the semicolon-separated file, as `csv.reader` yields it. */
  type Row = seq<string>

  /** The claimed file: its size on disk and its records, `None` when the
      content cannot be decoded or tokenised. */
  datatype FileData = FileData(sizeBytes: nat, rows: Option<seq<Row>>)

  /** The exceptions `process_file` raises, one per message. */
  datatype ImportError =
    | FileMissing
    | FileTooLarge(size: nat, limit: nat)
    | Unreadable
    | FileEmpty
    | NoDataAfterHeader
    | TooFewColumns(line: nat)
    | BlankValue(line: nat)
    | InvalidReal(line: nat, raw: string)
    | InvalidFake(line: nat, raw: string)
    | DuplicateReal(line: nat, phone: string)
    | DuplicateFake(line: nat, phone: string)
    | StoreFailed(cause: StoreError)

  /** The errors raised for one data row, each naming the row's line. */
  predicate IsRowError(e: ImportError) {
    e.TooFewColumns? || e.BlankValue? || e.InvalidReal? || e.InvalidFake? || e.DuplicateReal? || e.DuplicateFake?
  }

  function LineOf(e: ImportError): nat
    requires IsRowError(e)
  {
    e.line
  }

  // ---------------------------------------------------------------------
  // Row validation
  // ---------------------------------------------------------------------

  function Column(row: Row, k: nat): string {
    if k < |row| then row[k] else []
  }

  /** The (real, fake) pair a data row stands for: its first two columns,
      normalised. */
  function RowPair(row: Row): Mapping {
    Mapping(NormalizePhone(Column(row, 0)), NormalizePhone(Column(row, 1)))
  }

  function Pairs(rows: seq<Row>): (ps: seq<Mapping>)
    ensures |ps| == |rows|
  {
    if rows == [] then [] else [RowPair(rows[0])] + Pairs(rows[1..])
  }

  /** A data row acceptable on its own: two columns, both valid numbers. */
  predicate RowWellFormed(row: Row) {
    |row| >= 2 && ValidatePhone(row[0]) && ValidatePhone(row[1])
  }

  /** A row passes its own checks against the numbers seen before it. */
  predicate RowPasses(row: Row, seenReal: set<string>, seenFake: set<string>) {
    RowWellFormed(row) && RowPair(row).realPhone !in seenReal && RowPair(row).fakePhone !in seenFake
  }

  /** Data rows the row loop runs through without raising, given the real
      and fake numbers already seen. */
  predicate Acceptable(rows: seq<Row>, seenReal: set<string>, seenFake: set<string>)
    decreases |rows|
  {
    || rows == []
    || (&& RowPasses(rows[0], seenReal, seenFake)
        && Acceptable(rows[1..], seenReal + {RowPair(rows[0]).realPhone}, seenFake + {RowPair(rows[0]).fakePhone}))
  }

  /** What a file's rows must satisfy to be imported: every row has two
      valid numbers, the pairs satisfy both UNIQUE constraints, and no pair
      reuses a number already seen. */
  predicate Consistent(rows: seq<Row>, seenReal: set<string>, seenFake: set<string>) {
    && (forall i :: 0 <= i < |rows| ==> RowWellFormed(rows[i]))
    && UniqueColumns(Pairs(rows))
    && Reals(Pairs(rows)) !! seenReal
    && Fakes(Pairs(rows)) !! seenFake
  }

  /** The checks one iteration of the row loop makes, in the order the worker applies them. */
  function RowFault(row: Row, line: nat, seenReal: set<string>, seenFake: set<string>): (f: Option<ImportError>)
    ensures f.Some? ==> IsRowError(f.value) && LineOf(f.value) == line
  {
    if |row| < 2 then Some(TooFewColumns(line))
    else
      var rawReal := Strip(row[0]);
      var rawFake := Strip(row[1]);
      if rawReal == [] || rawFake == [] then Some(BlankValue(line))
      else
        var realPhone := NormalizePhone(rawReal);
        var fakePhone := NormalizePhone(rawFake);
        if !ValidatePhone(realPhone) then Some(InvalidReal(line, rawReal))
        else if !ValidatePhone(fakePhone) then Some(InvalidFake(line, rawFake))
        else if realPhone in seenReal then Some(DuplicateReal(line, realPhone))
        else if fakePhone in seenFake then Some(DuplicateFake(line, fakePhone))
        else None
  }

  /** A row passes its checks exactly when it is well formed and repeats no
      number already seen; a failing row's error names its line. */
  lemma RowFaultExact(row: Row, line: nat, seenReal: set<string>, seenFake: set<string>)
    ensures RowFault(row, line, seenReal, seenFake).None? <==> RowPasses(row, seenReal, seenFake)
    ensures RowFault(row, line, seenReal, seenFake).Some? ==>
            var e := RowFault(row, line, seenReal, seenFake).value; IsRowError(e) && LineOf(e) == line
  {
    if |row| >= 2 {
      StrippedCellValidity(row[0]);
      StrippedCellValidity(row[1]);
    }
  }

  /** Which error a row with several faults raises: the checks run in a
      fixed order and the first one that fails decides, whatever the later
      cells and the seen numbers are. A blank cell hides an invalid one, an
      invalid real number hides an invalid fake one, and a repeated real
      number hides a repeated fake one. */
  lemma RowFaultOrder(row: Row, line: nat, seenReal: set<string>, seenFake: set<string>)
    ensures |row| < 2 ==> RowFault(row, line, seenReal, seenFake) == Some(TooFewColumns(line))
    ensures |row| >= 2 && (Strip(row[0]) == [] || Strip(row[1]) == []) ==>
              RowFault(row, line, seenReal, seenFake) == Some(BlankValue(line))
    ensures |row| >= 2 && Strip(row[0]) != [] && Strip(row[1]) != [] && !ValidatePhone(row[0]) ==>
              RowFault(row, line, seenReal, seenFake) == Some(InvalidReal(line, Strip(row[0])))
    ensures |row| >= 2 && Strip(row[1]) != [] && ValidatePhone(row[0]) && !ValidatePhone(row[1]) ==>
              RowFault(row, line, seenReal, seenFake) == Some(InvalidFake(line, Strip(row[1])))
    ensures RowWellFormed(row) && RowPair(row).realPhone in seenReal ==>
              RowFault(row, line, seenReal, seenFake) == Some(DuplicateReal(line, RowPair(row).realPhone))
    ensures RowWellFormed(row) && RowPair(row).realPhone !in seenReal && RowPair(row).fakePhone in seenFake ==>
              RowFault(row, line, seenReal, seenFake) == Some(DuplicateFake(line, RowPair(row).fakePhone))
  {
    if |row| >= 2 {
      StrippedCellValidity(row[0]);
      StrippedCellValidity(row[1]);
    }
  }

  lemma {:induction false} PairsAppend(a: seq<Row>, b: seq<Row>)
    ensures Pairs(a + b) == Pairs(a) + Pairs(b)
    decreases |a|
  {
    if a == [] {
      assert a + b == b;
    } else {
      assert (a + b)[1..] == a[1..] + b;
      PairsAppend(a[1..], b);
    }
  }

  lemma PairsCons(row: Row, rest: seq<Row>)
    ensures Pairs([row] + rest) == [RowPair(row)] + Pairs(rest)
  {
    assert ([row] + rest)[1..] == rest;
  }

  lemma EmptyUnion(x: set<string>)
    ensures {} + x == x && x + {} == x
  {
  }

  lemma WellFormedAppend(a: seq<Row>, b: seq<Row>)
    ensures (forall i :: 0 <= i < |a + b| ==> RowWellFormed((a + b)[i])) <==>
            (forall i :: 0 <= i < |a| ==> RowWellFormed(a[i])) && (forall i :: 0 <= i < |b| ==> RowWellFormed(b[i]))
  {
    assert forall i :: 0 <= i < |a| ==> (a + b)[i] == a[i];
    assert forall i :: 0 <= i < |b| ==> (a + b)[|a| + i] == b[i];
  }

  lemma ConsistentCons(row: Row, rest: seq<Row>, seenReal: set<string>, seenFake: set<string>)
    ensures Consistent([row] + rest, seenReal, seenFake) <==>
            RowPasses(row, seenReal, seenFake)
            && Consistent(rest, seenReal + {RowPair(row).realPhone}, seenFake + {RowPair(row).fakePhone})
  {
    var pair := RowPair(row);
    PairsCons(row, rest);
    WellFormedAppend([row], rest);
    AppendUnique([pair], Pairs(rest));
    ColumnsCons(pair, Pairs(rest));
    ColumnsSingle(pair);
  }

  /** The row loop accepts exactly the consistent rows: its row-by-row
      checks against the numbers seen so far amount to the UNIQUE
      constraints over the whole file. */
  lemma {:induction false} AcceptableExact(rows: seq<Row>, seenReal: set<string>, seenFake: set<string>)
    ensures Acceptable(rows, seenReal, seenFake) <==> Consistent(rows, seenReal, seenFake)
    decreases |rows|
  {
    if rows == [] {
      assert Pairs(rows) == [];
      ColumnsEmpty();
    } else {
      var pair := RowPair(rows[0]);
      assert [rows[0]] + rows[1..] == rows;
      ConsistentCons(rows[0], rows[1..], seenReal, seenFake);
      AcceptableExact(rows[1..], seenReal + {pair.realPhone}, seenFake + {pair.fakePhone});
    }
  }

  /** Extending by one row at the front, as the row loop consumes them. */
  lemma AcceptableCons(row: Row, rest: seq<Row>, seenReal: set<string>, seenFake: set<string>)
    ensures Acceptable([row] + rest, seenReal, seenFake) <==>
            RowPasses(row, seenReal, seenFake)
            && Acceptable(rest, seenReal + {RowPair(row).realPhone}, seenFake + {RowPair(row).fakePhone})
  {
    assert ([row] + rest)[0] == row;
    assert ([row] + rest)[1..] == rest;
  }

  /** The row loop of process_file from the row numbered `line` on, with
      the numbers already seen; it stops at the first failing row. */
  function CheckRows(rows: seq<Row>, line: nat, seenReal: set<string>, seenFake: set<string>)
    : (r: Result<seq<Mapping>, ImportError>)
    ensures r.Ok? <==> Acceptable(rows, seenReal, seenFake)
    ensures r.Ok? ==> r.value == Pairs(rows)
    ensures r.Err? ==> IsRowError(r.error) && line <= LineOf(r.error) < line + |rows|
    decreases |rows|
  {
    if rows == [] then Ok([])
    else
      AcceptableCons(rows[0], rows[1..], seenReal, seenFake);
      assert [rows[0]] + rows[1..] == rows;
      RowFaultExact(rows[0], line, seenReal, seenFake);
      match RowFault(rows[0], line, seenReal, seenFake)
      case Some(e) => Err(e)
      case None =>
        var pair := RowPair(rows[0]);
        match CheckRows(rows[1..], line + 1, seenReal + {pair.realPhone}, seenFake + {pair.fakePhone})
        case Ok(ps) =>
          PairsCons(rows[0], rows[1..]);
          Ok([pair] + ps)
        case Err(e) => Err(e)
  }

  // The shape of the row loop, for any check of one row against its line
  // and the numbers seen before it: it runs until the first row the check
  // rejects and reports what the check says about that row.

  /** The row loop with `check` in place of the row checks. */
  function Scan<E>(check: (Row, nat, set<string>, set<string>) -> Option<E>, rows: seq<Row>, line: nat,
                   seenReal: set<string>, seenFake: set<string>): Result<seq<Mapping>, E>
    decreases |rows|
  {
    if rows == [] then Ok([])
    else
      match check(rows[0], line, seenReal, seenFake)
      case Some(e) => Err(e)
      case None =>
        var pair := RowPair(rows[0]);
        match Scan(check, rows[1..], line + 1, seenReal + {pair.realPhone}, seenFake + {pair.fakePhone})
        case Ok(ps) => Ok([pair] + ps)
        case Err(e) => Err(e)
  }

  /** Every row passes `check` against the numbers seen before it. */
  predicate Clear<E>(check: (Row, nat, set<string>, set<string>) -> Option<E>, rows: seq<Row>, line: nat,
                     seenReal: set<string>, seenFake: set<string>)
    decreases |rows|
  {
    || rows == []
    || (&& check(rows[0], line, seenReal, seenFake).None?
        && Clear(check, rows[1..], line + 1, seenReal + {RowPair(rows[0]).realPhone}, seenFake + {RowPair(rows[0]).fakePhone}))
  }

  /** Row `j` is the first row `check` rejects, and it rejects it with `e`. */
  ghost predicate Stops<E>(check: (Row, nat, set<string>, set<string>) -> Option<E>, rows: seq<Row>, line: nat,
                     seenReal: set<string>, seenFake: set<string>, j: nat, e: E)
  {
    && j < |rows|
    && Clear(check, rows[..j], line, seenReal, seenFake)
    && check(rows[j], line + j, seenReal + Reals(Pairs(rows[..j])), seenFake + Fakes(Pairs(rows[..j]))) == Some(e)
  }

  /** The loop completes exactly when every row passes, and then yields
      the pairs of all rows. */
  lemma {:induction false} ScanClear<E>(check: (Row, nat, set<string>, set<string>) -> Option<E>, rows: seq<Row>, line: nat,
                                        seenReal: set<string>, seenFake: set<string>)
    ensures Scan(check, rows, line, seenReal, seenFake).Ok? <==> Clear(check, rows, line, seenReal, seenFake)
    ensures Scan(check, rows, line, seenReal, seenFake).Ok? ==> Scan(check, rows, line, seenReal, seenFake).value == Pairs(rows)
    decreases |rows|
  {
    if rows != [] {
      var pair := RowPair(rows[0]);
      ScanClear(check, rows[1..], line + 1, seenReal + {pair.realPhone}, seenFake + {pair.fakePhone});
    }
  }

  /** Passing `check` one row at a time, as the loop consumes them. */
  lemma ClearCons<E>(check: (Row, nat, set<string>, set<string>) -> Option<E>, row: Row, tail: seq<Row>, line: nat,
                     seenReal: set<string>, seenFake: set<string>)
    ensures Clear(check, [row] + tail, line, seenReal, seenFake) <==>
            && check(row, line, seenReal, seenFake).None?
            && Clear(check, tail, line + 1, seenReal + {RowPair(row).realPhone}, seenFake + {RowPair(row).fakePhone})
  {
    assert ([row] + tail)[0] == row;
    assert ([row] + tail)[1..] == tail;
  }

  /** Row `j` and the numbers seen before it, from the rows after the first. */
  lemma SeenShift(rows: seq<Row>, seenReal: set<string>, seenFake: set<string>, j: nat)
    requires 1 <= j < |rows|
    ensures var tail := rows[1..][..j - 1];
            && rows[j] == rows[1..][j - 1]
            && seenReal + Reals(Pairs(rows[..j])) == seenReal + {RowPair(rows[0]).realPhone} + Reals(Pairs(tail))
            && seenFake + Fakes(Pairs(rows[..j])) == seenFake + {RowPair(rows[0]).fakePhone} + Fakes(Pairs(tail))
  {
    var tail := rows[1..][..j - 1];
    assert rows[..j] == [rows[0]] + tail;
    PairsCons(rows[0], tail);
    ColumnsCons(RowPair(rows[0]), Pairs(tail));
  }

  /** Past a first row that passes, the first rejected row of the run is the
      first rejected row of the rest, one position earlier. */
  lemma StopsShift<E>(check: (Row, nat, set<string>, set<string>) -> Option<E>, rows: seq<Row>, line: nat,
                      seenReal: set<string>, seenFake: set<string>, j: nat, e: E)
    requires rows != [] && check(rows[0], line, seenReal, seenFake).None? && 1 <= j
    ensures Stops(check, rows, line, seenReal, seenFake, j, e) <==>
            Stops(check, rows[1..], line + 1, seenReal + {RowPair(rows[0]).realPhone}, seenFake + {RowPair(rows[0]).fakePhone}, j - 1, e)
  {
    if j < |rows| {
      var tail := rows[1..][..j - 1];
      var pair := RowPair(rows[0]);
      var sr, sf := seenReal + {pair.realPhone}, seenFake + {pair.fakePhone};
      assert Clear(check, rows[..j], line, seenReal, seenFake) <==> Clear(check, tail, line + 1, sr, sf) by {
        assert rows[..j] == [rows[0]] + tail;
        ClearCons(check, rows[0], tail, line, seenReal, seenFake);
      }
      assert check(rows[j], line + j, seenReal + Reals(Pairs(rows[..j])), seenFake + Fakes(Pairs(rows[..j])))
          == check(rows[1..][j - 1], line + 1 + (j - 1), sr + Reals(Pairs(tail)), sf + Fakes(Pairs(tail))) by {
        SeenShift(rows, seenReal, seenFake, j);
      }
    }
  }

  /** A rejected run stops at its first rejected row, with that row's
      error. */
  lemma {:induction false} ScanStops<E>(check: (Row, nat, set<string>, set<string>) -> Option<E>, rows: seq<Row>, line: nat,
                                        seenReal: set<string>, seenFake: set<string>) returns (j: nat)
    requires Scan(check, rows, line, seenReal, seenFake).Err?
    ensures Stops(check, rows, line, seenReal, seenFake, j, Scan(check, rows, line, seenReal, seenFake).error)
    decreases |rows|
  {
    if check(rows[0], line, seenReal, seenFake).Some? {
      j := 0;
      assert rows[..0] == [];
      assert Pairs(rows[..0]) == [];
      ColumnsEmpty();
      EmptyUnion(seenReal);
      EmptyUnion(seenFake);
    } else {
      var pair := RowPair(rows[0]);
      var k := ScanStops(check, rows[1..], line + 1, seenReal + {pair.realPhone}, seenFake + {pair.fakePhone});
      j := k + 1;
      StopsShift(check, rows, line, seenReal, seenFake, j, Scan(check, rows, line, seenReal, seenFake).error);
    }
  }

  /** The first rejected row decides the outcome: the loop fails with its
      error, whatever the rows after it hold. */
  lemma {:induction false} StopsScan<E>(check: (Row, nat, set<string>, set<string>) -> Option<E>, rows: seq<Row>, line: nat,
                                        seenReal: set<string>, seenFake: set<string>, j: nat, e: E)
    requires Stops(check, rows, line, seenReal, seenFake, j, e)
    ensures Scan(check, rows, line, seenReal, seenFake) == Err(e)
    decreases j
  {
    if j == 0 {
      assert rows[..0] == [];
      assert Pairs(rows[..0]) == [];
      ColumnsEmpty();
      EmptyUnion(seenReal);
      EmptyUnion(seenFake);
    } else {
      var pair := RowPair(rows[0]);
      assert rows[..j][0] == rows[0];
      StopsShift(check, rows, line, seenReal, seenFake, j, e);
      StopsScan(check, rows[1..], line + 1, seenReal + {pair.realPhone}, seenFake + {pair.fakePhone}, j - 1, e);
    }
  }

  /** CheckRows is the loop with the row checks of process_file. */
  lemma {:induction false} CheckRowsIsScan(rows: seq<Row>, line: nat, seenReal: set<string>, seenFake: set<string>)
    ensures CheckRows(rows, line, seenReal, seenFake) == Scan(RowFault, rows, line, seenReal, seenFake)
    decreases |rows|
  {
    if rows != [] {
      var pair := RowPair(rows[0]);
      CheckRowsIsScan(rows[1..], line + 1, seenReal + {pair.realPhone}, seenFake + {pair.fakePhone});
    }
  }

  /** Passing the row checks row by row is acceptability. */
  lemma {:induction false} ClearAcceptable(rows: seq<Row>, line: nat, seenReal: set<string>, seenFake: set<string>)
    ensures Clear(RowFault, rows, line, seenReal, seenFake) <==> Acceptable(rows, seenReal, seenFake)
    decreases |rows|
  {
    if rows != [] {
      var pair := RowPair(rows[0]);
      RowFaultExact(rows[0], line, seenReal, seenFake);
      ClearAcceptable(rows[1..], line + 1, seenReal + {pair.realPhone}, seenFake + {pair.fakePhone});
    }
  }

  /** CheckRows fails with the fault of the first failing row. */
  lemma FaultReported(rows: seq<Row>, line: nat, seenReal: set<string>, seenFake: set<string>, j: nat, e: ImportError)
    requires j < |rows| && Acceptable(rows[..j], seenReal, seenFake)
    requires RowFault(rows[j], line + j, seenReal + Reals(Pairs(rows[..j])), seenFake + Fakes(Pairs(rows[..j]))) == Some(e)
    ensures CheckRows(rows, line, seenReal, seenFake) == Err(e)
  {
    ClearAcceptable(rows[..j], line, seenReal, seenFake);
    StopsScan(RowFault, rows, line, seenReal, seenFake, j, e);
    CheckRowsIsScan(rows, line, seenReal, seenFake);
  }

  /** The error CheckRows reports is the fault of the first failing row:
      every row before the line it names is acceptable, and that row raises
      exactly it against the numbers the rows before it hold. */
  lemma CheckRowsFirstFault(rows: seq<Row>, line: nat, seenReal: set<string>, seenFake: set<string>) returns (j: nat)
    requires CheckRows(rows, line, seenReal, seenFake).Err?
    ensures var e := CheckRows(rows, line, seenReal, seenFake).error; IsRowError(e) && j == LineOf(e) - line
    ensures j < |rows| && Acceptable(rows[..j], seenReal, seenFake)
    ensures RowFault(rows[j], line + j, seenReal + Reals(Pairs(rows[..j])), seenFake + Fakes(Pairs(rows[..j])))
            == Some(CheckRows(rows, line, seenReal, seenFake).error)
  {
    j := FailingRowOf(rows, line, seenReal, seenFake);
    FaultIndexOf(rows, line, seenReal, seenFake, j, CheckRows(rows, line, seenReal, seenFake).error);
  }

  /** The fault of row `j` names line `line + j`, so the row can be found
      again from the error alone. */
  lemma FaultIndexOf(rows: seq<Row>, line: nat, seenReal: set<string>, seenFake: set<string>, j: nat, e: ImportError)
    requires j < |rows|
    requires RowFault(rows[j], line + j, seenReal + Reals(Pairs(rows[..j])), seenFake + Fakes(Pairs(rows[..j]))) == Some(e)
    ensures IsRowError(e) && LineOf(e) - line == j
  {
  }

  /** A failing CheckRows stopped at a row that follows acceptable rows
      and raises the reported error. */
  lemma FailingRowOf(rows: seq<Row>, line: nat, seenReal: set<string>, seenFake: set<string>) returns (j: nat)
    requires CheckRows(rows, line, seenReal, seenFake).Err?
    ensures j < |rows| && Acceptable(rows[..j], seenReal, seenFake)
    ensures RowFault(rows[j], line + j, seenReal + Reals(Pairs(rows[..j])), seenFake + Fakes(Pairs(rows[..j])))
            == Some(CheckRows(rows, line, seenReal, seenFake).error)
  {
    CheckRowsIsScan(rows, line, seenReal, seenFake);
    j := ScanStops(RowFault, rows, line, seenReal, seenFake);
    ClearAcceptable(rows[..j], line, seenReal, seenFake);
  }

  /** The row loop over the data rows, numbered from 2 for the header. */
  function ValidateRows(data: seq<Row>): (r: Result<seq<Mapping>, ImportError>)
    ensures r.Ok? <==> Consistent(data, {}, {})
    ensures r.Ok? ==> r.value == Pairs(data) && UniqueColumns(r.value)
    ensures r.Err? ==> IsRowError(r.error) && 2 <= LineOf(r.error) < |data| + 2
  {
    AcceptableExact(data, {}, {});
    CheckRows(data, 2, {}, {})
  }

  /** The real numbers of the data rows before row `j`. */
  function SeenReal(data: seq<Row>, j: nat): set<string>
    requires j <= |data|
  {
    Reals(Pairs(data[..j]))
  }

  /** The fake numbers of the data rows before row `j`. */
  function SeenFake(data: seq<Row>, j: nat): set<string>
    requires j <= |data|
  {
    Fakes(Pairs(data[..j]))
  }

  /** Exact error reporting: the error is the fault of the first row that
      fails, named by that row's line number. */
  lemma FirstFaultyRowReported(data: seq<Row>, j: nat, e: ImportError)
    requires j < |data|
    requires Acceptable(data[..j], {}, {})
    requires RowFault(data[j], j + 2, SeenReal(data, j), SeenFake(data, j)) == Some(e)
    ensures ValidateRows(data) == Err(e)
  {
    FirstFaultyRowStops(data, j, e);
  }

  lemma FirstFaultyRowStops(data: seq<Row>, j: nat, e: ImportError)
    requires j < |data|
    requires Acceptable(data[..j], {}, {})
    requires RowFault(data[j], j + 2, SeenReal(data, j), SeenFake(data, j)) == Some(e)
    ensures CheckRows(data, 2, {}, {}) == Err(e)
  {
    EmptyUnion(SeenReal(data, j));
    EmptyUnion(SeenFake(data, j));
    FaultReported(data, 2, {}, {}, j, e);
  }

  /** The row the reported error names is the first that fails its checks. */
  lemma ReportedFaultIndex(data: seq<Row>) returns (k: nat)
    requires CheckRows(data, 2, {}, {}).Err?
    ensures var e := CheckRows(data, 2, {}, {}).error; IsRowError(e) && k == LineOf(e) - 2
    ensures k < |data| && Acceptable(data[..k], {}, {})
    ensures !RowPasses(data[k], SeenReal(data, k), SeenFake(data, k))
  {
    k := ReportedFaultRow(data);
    RowFaultExact(data[k], k + 2, SeenReal(data, k), SeenFake(data, k));
  }

  lemma ReportedFaultRow(data: seq<Row>) returns (k: nat)
    requires CheckRows(data, 2, {}, {}).Err?
    ensures var e := CheckRows(data, 2, {}, {}).error; IsRowError(e) && k == LineOf(e) - 2
    ensures k < |data| && Acceptable(data[..k], {}, {})
    ensures RowFault(data[k], k + 2, SeenReal(data, k), SeenFake(data, k)) == Some(CheckRows(data, 2, {}, {}).error)
  {
    k := CheckRowsFirstFault(data, 2, {}, {});
    EmptyUnion(SeenReal(data, k));
    EmptyUnion(SeenFake(data, k));
  }

  /** A repeated real number fails the whole file at the line of its first
      repeat, even when later rows are fine or faulty in other ways. */
  lemma DuplicateRealReportedAtRepeat(data: seq<Row>, j: nat)
    requires j < |data|
    requires Consistent(data[..j], {}, {})
    requires RowWellFormed(data[j])
    requires RowPair(data[j]).realPhone in Reals(Pairs(data[..j]))
    ensures ValidateRows(data) == Err(DuplicateReal(j + 2, RowPair(data[j]).realPhone))
  {
    var row := data[j];
    AcceptableExact(data[..j], {}, {});
    RowFaultExact(row, j + 2, Reals(Pairs(data[..j])), Fakes(Pairs(data[..j])));
    StrippedCellValidity(row[0]);
    StrippedCellValidity(row[1]);
    FirstFaultyRowReported(data, j, DuplicateReal(j + 2, RowPair(row).realPhone));
  }

  // ---------------------------------------------------------------------
  // process_file
  // ---------------------------------------------------------------------

  datatype Imported = Imported(inserted: nat, totalRows: nat)

  /** A file that gets as far as the row loop: present, not over the size
      limit, decodable, and with at least one row after the header. */
  predicate ReachesRows(file: Option<FileData>, maxBytes: nat) {
    && file.Some?
    && file.value.sizeBytes <= maxBytes
    && file.value.rows.Some?
    && |file.value.rows.value| >= 2
  }

  function DataRows(file: Option<FileData>, maxBytes: nat): seq<Row>
    requires ReachesRows(file, maxBytes)
  {
    file.value.rows.value[1..]
  }

  /** process_file: read and validate every data row, then hand the pairs to
      replace_all_mappings; raises on the first problem. */
  function ProcessFile(file: Option<FileData>, maxBytes: nat, s: Store, c: Conn)
    : (r: (Result<Imported, ImportError>, Store))
    ensures r.0.Ok? <==> ReachesRows(file, maxBytes) && Consistent(DataRows(file, maxBytes), {}, {})
                         && c.connected && !c.fault
    ensures r.0.Ok? ==>
              var data := DataRows(file, maxBytes);
              r.1 == s.(mappings := Pairs(data)) && r.0.value == Imported(|data|, |data|)
    ensures r.0.Err? ==> r.1 == s
    ensures file.None? ==> r.0 == Err(FileMissing)
    ensures file.Some? && file.value.sizeBytes > maxBytes ==>
              r.0 == Err(FileTooLarge(file.value.sizeBytes, maxBytes))
    ensures file.Some? && file.value.sizeBytes <= maxBytes && file.value.rows.None? ==> r.0 == Err(Unreadable)
    ensures file.Some? && file.value.sizeBytes <= maxBytes && file.value.rows == Some([]) ==> r.0 == Err(FileEmpty)
    ensures file.Some? && file.value.sizeBytes <= maxBytes && file.value.rows.Some? && |file.value.rows.value| == 1 ==>
              r.0 == Err(NoDataAfterHeader)
    ensures ReachesRows(file, maxBytes) && !Consistent(DataRows(file, maxBytes), {}, {}) ==>
              ValidateRows(DataRows(file, maxBytes)).Err?
              && r.0 == Err(ValidateRows(DataRows(file, maxBytes)).error) && IsRowError(r.0.error)
    ensures r.0.Err? && r.0.error.StoreFailed? ==>
              ReachesRows(file, maxBytes) && Consistent(DataRows(file, maxBytes), {}, {})
    ensures ReachesRows(file, maxBytes) && Consistent(DataRows(file, maxBytes), {}, {}) && !(c.connected && !c.fault) ==>
              && r.0.Err? && r.0.error.StoreFailed?
              && (!c.connected ==> r.0.error.cause == NoConnection)
  {
    match file
    case None => (Err(FileMissing), s)
    case Some(f) =>
      if f.sizeBytes > maxBytes then (Err(FileTooLarge(f.sizeBytes, maxBytes)), s)
      else
        match f.rows
        case None => (Err(Unreadable), s)
        case Some(rows) =>
          if rows == [] then (Err(FileEmpty), s)
          else
            var data := rows[1..];
            if data == [] then (Err(NoDataAfterHeader), s)
            else
              AcceptableExact(data, {}, {});
              match ValidateRows(data)
              case Err(e) => (Err(e), s)
              case Ok(ms) =>
                var (res, s') := ReplaceAll(s, ms, c);
                if !res.success then (Err(StoreFailed(res.error.value)), s')
                else (Ok(Imported(res.inserted, |data|)), s')
  }

  // ---------------------------------------------------------------------
  // ImportState
  // ---------------------------------------------------------------------

  datatype Outcome = Succeeded(inserted: nat, totalRows: nat) | Failed(error: ImportError)

  /** The status_report dict of one cycle. Timestamps and the duration are
      opaque texts supplied by the clock. */
  datatype Report = Report(file: string, startedAt: string, finishedAt: string, duration: string, outcome: Outcome)

  /** The single slot of ImportState. */
  datatype ImportState = ImportState(data: Option<Report>)

  /** A freshly constructed ImportState: nothing has been set yet. */
  function InitialState(): (s: ImportState)
    ensures Snapshot(s) == None
  {
    ImportState(None)
  }

  /** ImportState.snapshot: the last report set, or None before any. */
  function Snapshot(s: ImportState): Option<Report> {
    s.data
  }

  /** ImportState.set: overwrites the slot. */
  function SetReport(s: ImportState, r: Report): (s': ImportState)
    ensures Snapshot(s') == Some(r)
  {
    ImportState(Some(r))
  }

  // ---------------------------------------------------------------------
  // write_marker
  // ---------------------------------------------------------------------

  datatype Field = Field(key: string, value: string)

  /** Python's str() of a bool. */
  function BoolText(b: bool): string {
    if b then "True" else "False"
  }

  function StoreErrorText(e: StoreError): string {
    match e
    case NoConnection => "no database connection"
    case DuplicateEntry => "duplicate entry"
    case StatementFailed => "statement failed"
  }

  /** str(e) of the exception that ended process_file. */
  function ErrorText(e: ImportError): string {
    match e
    case FileMissing => "file not found: " + ProcessingName
    case FileTooLarge(size, limit) => "file too large: " + NatToString(size) + " bytes > " + NatToString(limit)
    case Unreadable => "file could not be read"
    case FileEmpty => "file is empty"
    case NoDataAfterHeader => "no data after the header"
    case TooFewColumns(l) => "not enough columns in line " + NatToString(l)
    case BlankValue(l) => "empty value in line " + NatToString(l)
    case InvalidReal(l, raw) => "invalid real_phone in line " + NatToString(l) + ": " + raw
    case InvalidFake(l, raw) => "invalid fake_phone in line " + NatToString(l) + ": " + raw
    case DuplicateReal(l, p) => "duplicate real_phone '" + p + "' in line " + NatToString(l)
    case DuplicateFake(l, p) => "duplicate fake_phone '" + p + "' in line " + NatToString(l)
    case StoreFailed(cause) => "database write error: " + StoreErrorText(cause)
  }

  /** Name of the marker file in the inbox. */
  function MarkerName(success: bool): string {
    TargetFileName + (if success then ".OK" else ".fail")
  }

  /** The key=value lines of the marker, in the order they are written. */
  function MarkerFields(r: Report): (fs: seq<Field>)
    ensures |fs| == if r.outcome.Succeeded? then 7 else 6
    ensures fs[..5] == [Field("file", r.file), Field("success", BoolText(r.outcome.Succeeded?)),
                        Field("started_at", r.startedAt), Field("finished_at", r.finishedAt),
                        Field("duration_sec", r.duration)]
    ensures r.outcome.Succeeded? ==>
              fs[5..] == [Field("total_rows", NatToString(r.outcome.totalRows)), Field("inserted", NatToString(r.outcome.inserted))]
    ensures r.outcome.Failed? ==> fs[5] == Field("error", ErrorText(r.outcome.error))
  {
    var common := [Field("file", r.file), Field("success", BoolText(r.outcome.Succeeded?)),
                   Field("started_at", r.startedAt), Field("finished_at", r.finishedAt),
                   Field("duration_sec", r.duration)];
    match r.outcome
    case Succeeded(inserted, total) =>
      common + [Field("total_rows", NatToString(total)), Field("inserted", NatToString(inserted))]
    case Failed(e) => common + [Field("error", ErrorText(e))]
  }

  function RenderField(f: Field): string {
    f.key + "=" + f.value
  }

  function RenderLines(fs: seq<Field>): (lines: seq<string>)
    ensures |lines| == |fs|
    ensures forall i :: 0 <= i < |fs| ==> lines[i] == RenderField(fs[i])
  {
    seq(|fs|, i requires 0 <= i < |fs| => RenderField(fs[i]))
  }

  /** The content write_marker writes: the lines joined by newlines. */
  function MarkerText(r: Report): string {
    Join(RenderLines(MarkerFields(r)), '\n')
  }

  /** Reads one key=value line, splitting at the first '='. */
  function ParseField(line: string): Field {
    match IndexOf(line, '=')
    case None => Field(line, [])
    case Some(k) => Field(line[..k], line[k + 1..])
  }

  /** Reads a marker file back into its fields. */
  function ParseMarker(text: string): seq<Field> {
    var lines := Split(text, '\n');
    seq(|lines|, i requires 0 <= i < |lines| => ParseField(lines[i]))
  }

  /** A key that neither contains the separator nor ends the line. */
  predicate PlainKey(k: string) {
    '=' !in k && '\n' !in k
  }

  /** Fields that survive rendering: plain keys, single-line values. */
  predicate Renderable(fs: seq<Field>) {
    forall i :: 0 <= i < |fs| ==> PlainKey(fs[i].key) && '\n' !in fs[i].value
  }

  /** The marker can be read back when no value spans several lines. */
  predicate MarkerSafe(r: Report) {
    forall i :: 0 <= i < |MarkerFields(r)| ==> '\n' !in MarkerFields(r)[i].value
  }

  lemma ParseRenderField(f: Field)
    requires '=' !in f.key
    ensures ParseField(RenderField(f)) == f
  {
    var line := RenderField(f);
    assert line[|f.key|] == '=';
    assert line[..|f.key|] == f.key;
    assert line[|f.key| + 1..] == f.value;
  }

  /** Rendered fields read back to themselves. */
  lemma FieldsRoundTrip(fs: seq<Field>)
    requires |fs| >= 1 && Renderable(fs)
    ensures ParseMarker(Join(RenderLines(fs), '\n')) == fs
  {
    var lines := RenderLines(fs);
    forall i | 0 <= i < |lines| ensures '\n' !in lines[i] {
      assert lines[i] == fs[i].key + "=" + fs[i].value;
    }
    SplitJoin(lines, '\n');
    forall i | 0 <= i < |fs| ensures ParseField(lines[i]) == fs[i] {
      ParseRenderField(fs[i]);
    }
  }

  /** Every key write_marker uses is plain. */
  lemma MarkerKeysPlain(r: Report)
    ensures forall i :: 0 <= i < |MarkerFields(r)| ==> PlainKey(MarkerFields(r)[i].key)
  {
    var fs := MarkerFields(r);
    var keys := if r.outcome.Succeeded? then SuccessKeys else FailureKeys;
    forall i | 0 <= i < |fs| ensures fs[i].key == keys[i] {
      if i < 5 {
        assert fs[i] == fs[..5][i];
      } else {
        assert fs[i] == fs[5..][i - 5];
      }
    }
    KeysPlain();
  }

  const SuccessKeys: seq<string> := ["file", "success", "started_at", "finished_at", "duration_sec", "total_rows", "inserted"]
  const FailureKeys: seq<string> := ["file", "success", "started_at", "finished_at", "duration_sec", "error"]

  lemma KeysPlain()
    ensures forall i :: 0 <= i < |SuccessKeys| ==> PlainKey(SuccessKeys[i])
    ensures forall i :: 0 <= i < |FailureKeys| ==> PlainKey(FailureKeys[i])
  {
  }

  /** Reading the marker file back yields exactly the fields written. */
  lemma MarkerRoundTrip(r: Report)
    requires MarkerSafe(r)
    ensures ParseMarker(MarkerText(r)) == MarkerFields(r)
  {
    MarkerKeysPlain(r);
    FieldsRoundTrip(MarkerFields(r));
  }

  // ---------------------------------------------------------------------
  // scan_once
  // ---------------------------------------------------------------------

  /** What the claiming rename does: succeed, find the file gone
      (FileNotFoundError), or raise any other error out of the cycle. */
  datatype ClaimResult = Claimed | Vanished | RenameFailed

  /** The clock readings of one cycle, already formatted: ISO timestamps, the
      duration, and the `%Y%m%d_%H%M%S` stamp of the archive name. */
  datatype Clock = Clock(startedAt: string, finishedAt: string, duration: string, archiveStamp: string)

  /** Everything outside the worker one cycle depends on. */
  datatype CycleEnv = CycleEnv(claim: ClaimResult, conn: Conn, markerWriteFails: bool, moveFails: bool,
                               clock: Clock, maxFileBytes: nat)

  /** The inbox's data files, the marker files next to them, and the archive. */
  datatype Dirs = Dirs(incoming: map<string, FileData>, markers: map<string, string>, archive: map<string, FileData>)

  datatype World = World(dirs: Dirs, store: Store, state: ImportState)

  datatype Cycle = Idle | ClaimLost | ClaimRaised | Ran(report: Report)

  function ArchiveName(stamp: string): string {
    TargetStem + "_" + stamp + TargetSuffix
  }

  /** One scan_once cycle: look for the target, claim it by renaming,
      process it, write the marker, archive the file, publish the report. */
  function ScanOnce(w: World, env: CycleEnv): (r: (Cycle, World))
    ensures TargetFileName !in w.dirs.incoming ==> r == (Idle, w)
    ensures r.0.Ran? <==> TargetFileName in w.dirs.incoming && env.claim == Claimed
    ensures !r.0.Ran? ==> r.1 == w
    ensures r.0.Ran? ==>
              var file := w.dirs.incoming[TargetFileName];
              var (res, s') := ProcessFile(Some(file), env.maxFileBytes, w.store, env.conn);
              var rep := r.0.report;
              && (rep.outcome.Succeeded? <==> res.Ok?)
              && (res.Ok? ==> rep.outcome == Succeeded(res.value.inserted, res.value.totalRows))
              && (res.Err? ==> rep.outcome == Failed(res.error))
              && rep.file == TargetFileName
              && rep.startedAt == env.clock.startedAt && rep.finishedAt == env.clock.finishedAt
              && rep.duration == env.clock.duration
              && r.1.store == s'
              && Snapshot(r.1.state) == Some(rep)
              && r.1.dirs.markers == (if env.markerWriteFails then w.dirs.markers
                                     else w.dirs.markers[MarkerName(res.Ok?) := MarkerText(rep)])
              && TargetFileName !in r.1.dirs.incoming
              && (!env.moveFails ==> ProcessingName !in r.1.dirs.incoming
                                     && r.1.dirs.archive == w.dirs.archive[ArchiveName(env.clock.archiveStamp) := file])
              && (env.moveFails ==> ProcessingName in r.1.dirs.incoming && r.1.dirs.incoming[ProcessingName] == file
                                    && r.1.dirs.archive == w.dirs.archive)
    ensures forall n :: n != TargetFileName && n != ProcessingName ==>
              (n in r.1.dirs.incoming <==> n in w.dirs.incoming)
              && (n in w.dirs.incoming ==> r.1.dirs.incoming[n] == w.dirs.incoming[n])
  {
    if TargetFileName !in w.dirs.incoming then (Idle, w)
    else
      match env.claim
      case Vanished => (ClaimLost, w)
      case RenameFailed => (ClaimRaised, w)
      case Claimed =>
        var file := w.dirs.incoming[TargetFileName];
        var (res, s') := ProcessFile(Some(file), env.maxFileBytes, w.store, env.conn);
        var report := Report(TargetFileName, env.clock.startedAt, env.clock.finishedAt, env.clock.duration,
                             OutcomeOf(res));
        var markers := WriteMarker(w.dirs.markers, report, env.markerWriteFails);
        var archive := if env.moveFails then w.dirs.archive
                       else w.dirs.archive[ArchiveName(env.clock.archiveStamp) := file];
        var dirs := Dirs(InboxAfterCycle(w.dirs.incoming, env.moveFails), markers, archive);
        (Ran(report), World(dirs, s', SetReport(w.state, report)))
  }

  function OutcomeOf(res: Result<Imported, ImportError>): (o: Outcome)
    ensures o.Succeeded? <==> res.Ok?
    ensures res.Ok? ==> o == Succeeded(res.value.inserted, res.value.totalRows)
    ensures res.Err? ==> o == Failed(res.error)
  {
    match res
    case Ok(imp) => Succeeded(imp.inserted, imp.totalRows)
    case Err(e) => Failed(e)
  }

  /** write_marker, whose own failure is swallowed: the marker named after
      the outcome gets the report's text. */
  function WriteMarker(markers: map<string, string>, report: Report, fails: bool): (m: map<string, string>)
    ensures fails ==> m == markers
    ensures !fails ==> m == markers[MarkerName(report.outcome.Succeeded?) := MarkerText(report)]
    ensures !fails && MarkerSafe(report) ==>
              MarkerName(report.outcome.Succeeded?) in m
              && ParseMarker(m[MarkerName(report.outcome.Succeeded?)]) == MarkerFields(report)
    ensures forall k :: k != MarkerName(report.outcome.Succeeded?) ==>
              (k in m <==> k in markers) && (k in markers ==> m[k] == markers[k])
  {
    if fails then markers
    else
      var written := markers[MarkerName(report.outcome.Succeeded?) := MarkerText(report)];
      if MarkerSafe(report) then MarkerRoundTrip(report); written else written
  }

  /** The inbox after the claiming rename and, unless it fails, the move of
      the claimed file to the archive. */
  function InboxAfterCycle(incoming: map<string, FileData>, moveFails: bool): (r: map<string, FileData>)
    requires TargetFileName in incoming
    ensures TargetFileName !in r
    ensures moveFails ==> ProcessingName in r && r[ProcessingName] == incoming[TargetFileName]
    ensures !moveFails ==> ProcessingName !in r
    ensures forall n :: n != TargetFileName && n != ProcessingName ==>
              (n in r <==> n in incoming) && (n in incoming ==> r[n] == incoming[n])
  {
    var claimed := (incoming - {TargetFileName})[ProcessingName := incoming[TargetFileName]];
    if moveFails then claimed else claimed - {ProcessingName}
  }

  /** A cycle consumes the target: the next cycle, whatever its environment,
      finds nothing to do unless a new file is dropped. A `.processing` file
      left behind by a failed move is never picked up again. */
  /** The status slot starts empty and only a cycle that runs fills it: until
      then `snapshot` keeps returning None, and the first cycle that runs
      publishes its own report. */
  lemma FirstRunPublishes(w: World, env: CycleEnv)
    requires w.state == InitialState()
    ensures var (cycle, w') := ScanOnce(w, env);
            && (cycle.Ran? ==> Snapshot(w'.state) == Some(cycle.report))
            && (!cycle.Ran? ==> Snapshot(w'.state) == None)
  {
  }

  lemma ScanConsumesTarget(w: World, env: CycleEnv, next: CycleEnv)
    requires ScanOnce(w, env).0.Ran?
    ensures var w' := ScanOnce(w, env).1; ScanOnce(w', next) == (Idle, w')
  {
  }

  /** Each cycle leaves the mapping table either exactly as it was or exactly
      equal to the new file's pairs, never in between, and keeps the UNIQUE
      constraints. */
  lemma ScanIsAtomic(w: World, env: CycleEnv)
    ensures var (c, w') := ScanOnce(w, env);
            || w'.store == w.store
            || (&& c.Ran? && c.report.outcome.Succeeded?
                && var file := Some(w.dirs.incoming[TargetFileName]);
                   ReachesRows(file, env.maxFileBytes)
                   && w'.store.mappings == Pairs(DataRows(file, env.maxFileBytes)))
    ensures UniqueColumns(w.store.mappings) ==> UniqueColumns(ScanOnce(w, env).1.store.mappings)
    ensures DigitTable(w.store.mappings) ==> DigitTable(ScanOnce(w, env).1.store.mappings)
  {
    var (c, w') := ScanOnce(w, env);
    if w'.store != w.store {
      var file := Some(w.dirs.incoming[TargetFileName]);
      var data := DataRows(file, env.maxFileBytes);
      assert Consistent(data, {}, {});
      PairsAreDigits(data);
    }
  }

  /** Well-formed rows yield non-empty digit-only numbers. */
  lemma {:induction false} PairsAreDigits(rows: seq<Row>)
    requires forall i :: 0 <= i < |rows| ==> RowWellFormed(rows[i])
    ensures DigitTable(Pairs(rows))
    decreases |rows|
  {
    if rows != [] {
      PairsAreDigits(rows[1..]);
      ValidIsNonEmpty(rows[0][0]);
      ValidIsNonEmpty(rows[0][1]);
      PairsCons(rows[0], rows[1..]);
      assert rows == [rows[0]] + rows[1..];
    }
  }

  /** The marker written by a cycle reads back to the report's fields, and
      its `success` field agrees with the marker's name and the outcome. */
  lemma ScanMarkerReadsBack(w: World, env: CycleEnv)
    requires ScanOnce(w, env).0.Ran? && !env.markerWriteFails
    requires MarkerSafe(ScanOnce(w, env).0.report)
    ensures var (c, w') := ScanOnce(w, env);
            var ok := c.report.outcome.Succeeded?;
            && MarkerName(ok) in w'.dirs.markers
            && ParseMarker(w'.dirs.markers[MarkerName(ok)]) == MarkerFields(c.report)
            && MarkerFields(c.report)[1] == Field("success", BoolText(ok))
  {
    var rep := ScanOnce(w, env).0.report;
    ScanWritesMarker(w, env);
    MarkerRoundTrip(rep);
    MarkerSuccessField(rep);
  }

  /** The marker a cycle writes holds its report. */
  lemma ScanWritesMarker(w: World, env: CycleEnv)
    requires ScanOnce(w, env).0.Ran? && !env.markerWriteFails
    ensures var (c, w') := ScanOnce(w, env);
            w'.dirs.markers == w.dirs.markers[MarkerName(c.report.outcome.Succeeded?) := MarkerText(c.report)]
  {
  }

  /** The second field of a marker is the success flag. */
  lemma MarkerSuccessField(r: Report)
    ensures MarkerFields(r)[1] == Field("success", BoolText(r.outcome.Succeeded?))
  {
    assert MarkerFields(r)[1] == MarkerFields(r)[..5][1];
  }

  /** A valid file with n data rows: the cycle succeeds with total_rows and
      inserted both n, the table holds exactly the file's pairs, the `.OK`
      marker is written and the file is archived. */
  lemma ScanValidFile(w: World, env: CycleEnv)
    requires TargetFileName in w.dirs.incoming && env.claim == Claimed
    requires ReachesRows(Some(w.dirs.incoming[TargetFileName]), env.maxFileBytes)
    requires Consistent(DataRows(Some(w.dirs.incoming[TargetFileName]), env.maxFileBytes), {}, {})
    requires env.conn.connected && !env.conn.fault
    requires !env.markerWriteFails && !env.moveFails
    ensures var file := w.dirs.incoming[TargetFileName];
            var data := DataRows(Some(file), env.maxFileBytes);
            var (c, w') := ScanOnce(w, env);
            && c.Ran? && c.report.outcome == Succeeded(|data|, |data|)
            && w'.store.mappings == Pairs(data)
            && MarkerName(true) in w'.dirs.markers
            && w'.dirs.archive[ArchiveName(env.clock.archiveStamp)] == file
            && TargetFileName !in w'.dirs.incoming && ProcessingName !in w'.dirs.incoming
  {
  }

  /** A file whose first data row has a single column fails the cycle with
      the error for line 2, leaves the table untouched, writes the `.fail`
      marker and still archives the file. */
  lemma ScanShortFirstRow(w: World, env: CycleEnv)
    requires TargetFileName in w.dirs.incoming && env.claim == Claimed
    requires ReachesRows(Some(w.dirs.incoming[TargetFileName]), env.maxFileBytes)
    requires |DataRows(Some(w.dirs.incoming[TargetFileName]), env.maxFileBytes)[0]| < 2
    requires !env.markerWriteFails && !env.moveFails
    ensures var (c, w') := ScanOnce(w, env);
            && c.Ran? && c.report.outcome == Failed(TooFewColumns(2))
            && w'.store == w.store
            && MarkerName(false) in w'.dirs.markers
            && ArchiveName(env.clock.archiveStamp) in w'.dirs.archive
  {
    var data := DataRows(Some(w.dirs.incoming[TargetFileName]), env.maxFileBytes);
    assert data[..0] == [];
    FirstFaultyRowReported(data, 0, TooFewColumns(2));
  }
}

=== FILE: mapping_store.dfy ===
/** The `Database` class of app/models.py, over an abstract in-memory table.
    The table `phone_mappings` is a sequence of rows in insertion order whose
    `real_phone` and `fake_phone` columns are each UNIQUE; `call_logs` is an
    append-only sequence. Every operation takes a `Conn` saying whether
    `get_connection()` succeeds and whether some statement fails for a reason
    other than the UNIQUE constraints (any `mysql.connector.Error`). */
module MappingStore {
  import opened Wrappers
  import opened Text

  datatype Mapping = Mapping(realPhone: string, fakePhone: string)

  datatype CallEntry = CallEntry(fakePhone: string, realPhone: string)

  datatype Store = Store(mappings: seq<Mapping>, calls: seq<CallEntry>)

  /** The database as one call finds it. */
  datatype Conn = Conn(connected: bool, fault: bool)

  datatype StoreError = NoConnection | DuplicateEntry | StatementFailed

  /** The UNIQUE constraints on `real_phone` and on `fake_phone`. */
  predicate UniqueColumns(t: seq<Mapping>) {
    forall i, j :: 0 <= i < j < |t| ==> t[i].realPhone != t[j].realPhone && t[i].fakePhone != t[j].fakePhone
  }

  /** Every number in the table is a non-empty string of digits, the form in
      which both the importer and the upload handler write them. */
  predicate DigitTable(t: seq<Mapping>) {
    forall m :: m in t ==> m.realPhone != [] && IsDigits(m.realPhone) && m.fakePhone != [] && IsDigits(m.fakePhone)
  }

  function Reals(t: seq<Mapping>): set<string> {
    set m | m in t :: m.realPhone
  }

  function Fakes(t: seq<Mapping>): set<string> {
    set m | m in t :: m.fakePhone
  }

  lemma ColumnsAppend(a: seq<Mapping>, b: seq<Mapping>)
    ensures Reals(a + b) == Reals(a) + Reals(b)
    ensures Fakes(a + b) == Fakes(a) + Fakes(b)
  {
    assert forall m :: m in a + b <==> m in a || m in b;
  }

  lemma ColumnsSingle(m: Mapping)
    ensures Reals([m]) == {m.realPhone}
    ensures Fakes([m]) == {m.fakePhone}
  {
  }

  lemma ColumnsEmpty()
    ensures Reals([]) == {} && Fakes([]) == {}
  {
  }

  /** The numbers of a table grown by one row at the front. */
  lemma ColumnsCons(m: Mapping, t: seq<Mapping>)
    ensures Reals([m] + t) == {m.realPhone} + Reals(t)
    ensures Fakes([m] + t) == {m.fakePhone} + Fakes(t)
  {
    ColumnsAppend([m], t);
    ColumnsSingle(m);
  }

  /** Two row sequences satisfy the UNIQUE constraints together exactly when
      each does on its own and they share no real and no fake number. */
  lemma AppendUnique(t: seq<Mapping>, b: seq<Mapping>)
    ensures UniqueColumns(t + b) <==>
            UniqueColumns(t) && UniqueColumns(b) && Reals(t) !! Reals(b) && Fakes(t) !! Fakes(b)
  {
    var u := t + b;
    if UniqueColumns(u) {
      assert forall i :: 0 <= i < |b| ==> u[|t| + i] == b[i];
      assert forall i :: 0 <= i < |t| ==> u[i] == t[i];
      forall i, j | 0 <= i < j < |b| ensures b[i].realPhone != b[j].realPhone && b[i].fakePhone != b[j].fakePhone {
        assert u[|t| + i] == b[i] && u[|t| + j] == b[j];
      }
    }
    if UniqueColumns(t) && UniqueColumns(b) && Reals(t) !! Reals(b) && Fakes(t) !! Fakes(b) {
      forall i, j | 0 <= i < j < |u| ensures u[i].realPhone != u[j].realPhone && u[i].fakePhone != u[j].fakePhone {
        if j < |t| {
          assert u[i] == t[i] && u[j] == t[j];
        } else if i >= |t| {
          assert u[i] == b[i - |t|] && u[j] == b[j - |t|];
        } else {
          assert u[i] == t[i] && u[j] == b[j - |t|];
          assert t[i] in t && b[j - |t|] in b;
          assert u[i].realPhone in Reals(t) && u[j].realPhone in Reals(b);
          assert u[i].fakePhone in Fakes(t) && u[j].fakePhone in Fakes(b);
        }
      }
      assert UniqueColumns(u);
    }
  }

  /** The INSERT statements of an `executemany`, executed row by row against
      the table `t`: `None` as soon as a row repeats a real or fake number
      already present. */
  function InsertRows(t: seq<Mapping>, rows: seq<Mapping>): (r: Option<seq<Mapping>>)
    ensures r.Some? ==> r.value == t + rows
    ensures UniqueColumns(t) ==> (r.Some? <==> UniqueColumns(t + rows))
    decreases |rows|
  {
    if rows == [] then
      assert t + rows == t;
      Some(t)
    else if rows[0].realPhone in Reals(t) || rows[0].fakePhone in Fakes(t) then
      AppendUnique(t, rows);
      assert rows[0] in rows;
      None
    else
      var next := t + [rows[0]];
      assert next + rows[1..] == t + rows;
      AppendUnique(t, [rows[0]]);
      AppendUnique(t, rows);
      AppendUnique(next, rows[1..]);
      AppendUnique([rows[0]], rows[1..]);
      assert [rows[0]] + rows[1..] == rows;
      InsertRows(next, rows[1..])
  }

  /** The result triple of replace_all_mappings. */
  datatype Replaced = Replaced(success: bool, error: Option<StoreError>, inserted: nat)

  /** replace_all_mappings: one transaction that deletes every row, inserts
      `ms` (skipped when empty) and commits, or rolls back on any error. */
  function ReplaceAll(s: Store, ms: seq<Mapping>, c: Conn): (r: (Replaced, Store))
    ensures r.0.success ==> r.1 == s.(mappings := ms) && r.0 == Replaced(true, None, |ms|)
    ensures !r.0.success ==> r.1 == s && r.0.inserted == 0 && r.0.error.Some?
    ensures r.0.success <==> c.connected && !c.fault && UniqueColumns(ms)
    ensures !c.connected ==> r.0 == Replaced(false, Some(NoConnection), 0)
    ensures UniqueColumns(s.mappings) ==> UniqueColumns(r.1.mappings)
  {
    if !c.connected then (Replaced(false, Some(NoConnection), 0), s)
    else if c.fault then (Replaced(false, Some(StatementFailed), 0), s)
    else
      var afterDelete: seq<Mapping> := [];
      assert afterDelete + ms == ms;
      var afterInsert := if ms == [] then Some(afterDelete) else InsertRows(afterDelete, ms);
      match afterInsert
      case None => (Replaced(false, Some(DuplicateEntry), 0), s)
      case Some(t) => (Replaced(true, None, |ms|), s.(mappings := t))
  }

  /** insert_mappings_batch: all rows of `ms` are added and committed, or
      none is. */
  function InsertBatch(s: Store, ms: seq<Mapping>, c: Conn): (r: (bool, Store))
    ensures r.0 ==> r.1 == s.(mappings := s.mappings + ms)
    ensures !r.0 ==> r.1 == s
    ensures UniqueColumns(s.mappings) ==>
              (r.0 <==> c.connected && !c.fault && UniqueColumns(ms)
                        && Reals(s.mappings) !! Reals(ms) && Fakes(s.mappings) !! Fakes(ms))
    ensures UniqueColumns(s.mappings) ==> UniqueColumns(r.1.mappings)
  {
    AppendUnique(s.mappings, ms);
    if !c.connected || c.fault then (false, s)
    else
      match InsertRows(s.mappings, ms)
      case None => (false, s)
      case Some(t) => (true, s.(mappings := t))
  }

  /** The first row whose fake number is `fakePhone`. */
  function FindByFake(t: seq<Mapping>, fakePhone: string): (r: Option<Mapping>)
    ensures r.Some? ==> r.value in t && r.value.fakePhone == fakePhone
    ensures r.None? <==> fakePhone !in Fakes(t)
  {
    if t == [] then None
    else if t[0].fakePhone == fakePhone then Some(t[0])
    else
      var r := FindByFake(t[1..], fakePhone);
      assert Fakes(t) == {t[0].fakePhone} + Fakes(t[1..]);
      r
  }

  /** The first row whose real number is `realPhone`. */
  function FindByReal(t: seq<Mapping>, realPhone: string): (r: Option<Mapping>)
    ensures r.Some? ==> r.value in t && r.value.realPhone == realPhone
    ensures r.None? <==> realPhone !in Reals(t)
  {
    if t == [] then None
    else if t[0].realPhone == realPhone then Some(t[0])
    else
      var r := FindByReal(t[1..], realPhone);
      assert Reals(t) == {t[0].realPhone} + Reals(t[1..]);
      r
  }

  /** Under the UNIQUE constraints a fake number has at most one row. */
  lemma FakeRowIsUnique(t: seq<Mapping>, m: Mapping)
    requires m in t
    ensures UniqueColumns(t) ==> forall n :: n in t && n.fakePhone == m.fakePhone ==> n == m
  {
    if UniqueColumns(t) {
      forall n | n in t && n.fakePhone == m.fakePhone ensures n == m {
        var i :| 0 <= i < |t| && t[i] == m;
        var j :| 0 <= j < |t| && t[j] == n;
        assert !(i < j) && !(j < i);
      }
    }
  }

  /** Under the UNIQUE constraints a real number has at most one row. */
  lemma RealRowIsUnique(t: seq<Mapping>, m: Mapping)
    requires m in t
    ensures UniqueColumns(t) ==> forall n :: n in t && n.realPhone == m.realPhone ==> n == m
  {
    if UniqueColumns(t) {
      forall n | n in t && n.realPhone == m.realPhone ensures n == m {
        var i :| 0 <= i < |t| && t[i] == m;
        var j :| 0 <= j < |t| && t[j] == n;
        assert !(i < j) && !(j < i);
      }
    }
  }

  /** get_real_phone: the real number mapped to `fakePhone`, or None when there is
      none or the database cannot be used. */
  function GetRealPhone(s: Store, fakePhone: string, c: Conn): (r: Option<string>)
    ensures r.Some? ==> Mapping(r.value, fakePhone) in s.mappings
    ensures r.Some? <==> c.connected && !c.fault && fakePhone in Fakes(s.mappings)
    ensures UniqueColumns(s.mappings) ==>
              forall realPhone :: Mapping(realPhone, fakePhone) in s.mappings && c.connected && !c.fault ==> r == Some(realPhone)
  {
    if !c.connected || c.fault then None
    else
      match FindByFake(s.mappings, fakePhone)
      case None => None
      case Some(m) =>
        assert m == Mapping(m.realPhone, fakePhone);
        FakeRowIsUnique(s.mappings, m);
        Some(m.realPhone)
  }

  /** get_fake_phone: the fake number mapped to `realPhone`, or None when there is
      none or the database cannot be used. */
  function GetFakePhone(s: Store, realPhone: string, c: Conn): (r: Option<string>)
    ensures r.Some? ==> Mapping(realPhone, r.value) in s.mappings
    ensures r.Some? <==> c.connected && !c.fault && realPhone in Reals(s.mappings)
    ensures UniqueColumns(s.mappings) ==>
              forall fakePhone :: Mapping(realPhone, fakePhone) in s.mappings && c.connected && !c.fault ==> r == Some(fakePhone)
  {
    if !c.connected || c.fault then None
    else
      match FindByReal(s.mappings, realPhone)
      case None => None
      case Some(m) =>
        assert m == Mapping(realPhone, m.fakePhone);
        RealRowIsUnique(s.mappings, m);
        Some(m.fakePhone)
  }

  /** get_all_mappings: every row, or none when the database cannot be used. */
  function GetAllMappings(s: Store, c: Conn): (r: seq<Mapping>)
    ensures c.connected && !c.fault ==> multiset(r) == multiset(s.mappings)
    ensures !(c.connected && !c.fault) ==> r == []
  {
    if !c.connected || c.fault then [] else s.mappings
  }

  /** clear_all_mappings: every row is deleted, or nothing changes. */
  function ClearAll(s: Store, c: Conn): (r: (bool, Store))
    ensures r.0 ==> r.1.mappings == [] && r.1.calls == s.calls
    ensures !r.0 ==> r.1 == s
    ensures r.0 <==> c.connected && !c.fault
  {
    if !c.connected || c.fault then (false, s)
    else (true, s.(mappings := []))
  }

  /** log_call: appends one audit entry, or nothing changes. */
  function LogCall(s: Store, fakePhone: string, realPhone: string, c: Conn): (r: (bool, Store))
    ensures r.0 ==> r.1 == s.(calls := s.calls + [CallEntry(fakePhone, realPhone)])
    ensures !r.0 ==> r.1 == s
    ensures r.0 <==> c.connected && !c.fault
  {
    if !c.connected || c.fault then (false, s)
    else (true, s.(calls := s.calls + [CallEntry(fakePhone, realPhone)]))
  }

  /** Replacing the table and listing it gives back exactly the rows handed
      to the replace; a failed replace lists exactly what was there before. */
  lemma ReplaceThenList(s: Store, ms: seq<Mapping>, c: Conn, read: Conn)
    requires read.connected && !read.fault
    ensures var (res, s') := ReplaceAll(s, ms, c);
            multiset(GetAllMappings(s', read)) == if res.success then multiset(ms) else multiset(s.mappings)
  {
  }
}

=== FILE: routes.dfy ===
/** The web handlers of the masking service that touch the mapping table:
    the upload of a list of real numbers (which gives each new number a fresh
    fake number and reports the numbers already known), and the two lookups
    used by the telephony side. Request parsing, file saving and the JSON
    rendering are left to the framework; what is modelled is which response
    comes back and what happens to the table. */
module Routes {
  import opened Wrappers
  import opened Text
  import opened Utils
  import opened MappingStore

  // ---------------------------------------------------------------------
  // Upload
  // ---------------------------------------------------------------------

  /** The parts of the multipart request the handler reads: the uploaded
      file's name (None when there is no `file` part), the `clear_old` form
      field (None when absent), and the file's lines (None when it cannot be
      read back as UTF-8 text). */
  datatype UploadRequest = UploadRequest(filename: Option<string>, clearOld: Option<string>, lines: Option<seq<string>>)

  /** The database connections of the three stages: clearing or listing the
      table, looking up fake numbers of known real numbers, and the batch
      insert. */
  datatype UploadEnv = UploadEnv(prepare: Conn, lookup: Conn, insert: Conn)

  /** The database answers every call of a stage. */
  predicate Healthy(c: Conn) {
    c.connected && !c.fault
  }

  datatype Status = New | Existing

  /** One element of the response's `mappings` list. An existing number whose
      lookup fails is reported with no fake number (JSON null). */
  datatype Entry = Entry(realPhone: string, fakePhone: Option<string>, status: Status)

  /** The four 400 answers and the two 500 answers of the handler. */
  datatype UploadError = NoFile | NoFileSelected | NotCsv | NoValidPhones | ProcessingFailed | SaveFailed

  datatype UploadResponse =
    | Rejected(error: UploadError)
    | Accepted(total: nat, newCount: nat, existingCount: nat, entries: seq<Entry>)

  /** Number of random digits each generated fake number carries. */
  const SuffixLength: nat := RemainingLength(FakeNumberLength, FakeNumberPrefix)

  /** One block of generator draws for each of the first `n` phone numbers. */
  predicate DrawSupply(draws: seq<seq<string>>, n: nat) {
    && |draws| >= n
    && forall i :: 0 <= i < |draws| ==> WellFormedDraws(draws[i], SuffixLength)
  }

  /** The file passes the three checks made before anything is parsed. */
  predicate PassesFileChecks(req: UploadRequest) {
    req.filename.Some? && req.filename.value != "" && AllowedFile(req.filename.value)
  }

  /** `request.form.get('clear_old', 'false').lower() == 'true'`. */
  predicate ClearRequested(clearOld: Option<string>) {
    Lower(if clearOld.Some? then clearOld.value else "false") == "true"
  }

  /** A fake number as the configured generator produces it. */
  predicate CanonicalFake(f: string) {
    |f| == 15 && f[0] == '7' && IsDigits(f) && ValidatePhone(f)
  }

  /** The pairs the handler queues for insertion: one per new entry, in order. */
  function NewPairs(entries: seq<Entry>): (ms: seq<Mapping>)
    ensures |ms| <= |entries|
  {
    if entries == [] then []
    else
      var rest := NewPairs(entries[1..]);
      if entries[0].status == New && entries[0].fakePhone.Some? then
        [Mapping(entries[0].realPhone, entries[0].fakePhone.value)] + rest
      else rest
  }

  /** How many entries are new. */
  function CountNew(entries: seq<Entry>): (n: nat)
    ensures n <= |entries|
  {
    if entries == [] then 0 else (if entries[0].status == New then 1 else 0) + CountNew(entries[1..])
  }

  /** The store and the sets of known numbers the generation loop starts from. */
  datatype Prepared = Prepared(store: Store, knownReals: set<string>, knownFakes: set<string>)

  /** The clear-or-list step: with `clear` the table is emptied (a failure is
      ignored) and nothing counts as known; otherwise the known numbers are
      whatever the listing returns, nothing at all when the listing fails. */
  function Prepare(clear: bool, s: Store, c: Conn): (p: Prepared)
    ensures clear ==> p.knownReals == {} && p.knownFakes == {}
    ensures clear && c.connected && !c.fault ==> p.store == s.(mappings := [])
    ensures !(clear && c.connected && !c.fault) ==> p.store == s
    ensures !clear && c.connected && !c.fault ==>
              p.knownReals == Reals(s.mappings) && p.knownFakes == Fakes(s.mappings)
    ensures !clear && !(c.connected && !c.fault) ==> p.knownReals == {} && p.knownFakes == {}
  {
    if clear then
      Prepared(ClearAll(s, c).1, {}, {})
    else
      var all := GetAllMappings(s, c);
      Prepared(s, set m | m in all :: m.realPhone, set m | m in all :: m.fakePhone)
  }

  datatype Built = Built(entries: seq<Entry>, mappings: seq<Mapping>)

  /** The loop over the parsed numbers: a known real number is reported with
      the fake number the table holds for it; any other one gets a fresh fake
      number from its block of draws, which then counts as known. An
      exhausted generator raises, which ends the whole loop. */
  function BuildEntries(phones: seq<string>, knownReals: set<string>, knownFakes: set<string>,
                        s: Store, lookup: Conn, draws: seq<seq<string>>): (r: Result<Built, GenError>)
    requires DrawSupply(draws, |phones|)
    ensures r.Ok? ==> |r.value.entries| == |phones|
    ensures r.Ok? ==> forall i :: 0 <= i < |phones| ==>
                        && r.value.entries[i].realPhone == phones[i]
                        && (r.value.entries[i].status == Existing <==> phones[i] in knownReals)
    ensures r.Ok? ==> forall i :: 0 <= i < |phones| && phones[i] in knownReals ==>
                        r.value.entries[i].fakePhone == GetFakePhone(s, phones[i], lookup)
    ensures r.Ok? ==> forall i :: 0 <= i < |phones| && phones[i] !in knownReals ==>
                        r.value.entries[i].fakePhone.Some? && CanonicalFake(r.value.entries[i].fakePhone.value)
    ensures r.Ok? ==> r.value.mappings == NewPairs(r.value.entries)
    ensures r.Ok? ==> Fakes(r.value.mappings) !! knownFakes
    ensures r.Ok? ==> forall m :: m in r.value.mappings ==> m.realPhone in phones && m.realPhone !in knownReals
    ensures r.Err? ==> exists i :: 0 <= i < |phones| && phones[i] !in knownReals
    decreases |phones|
  {
    if phones == [] then Ok(Built([], []))
    else
      var p := phones[0];
      if p in knownReals then
        match BuildEntries(phones[1..], knownReals, knownFakes, s, lookup, draws[1..])
        case Err(g) => Err(g)
        case Ok(b) =>
          var e := Entry(p, GetFakePhone(s, p, lookup), Existing);
          assert ([e] + b.entries)[1..] == b.entries;
          Ok(Built([e] + b.entries, b.mappings))
      else
        match GenerateFakePhone(knownFakes, FakeNumberLength, FakeNumberPrefix, draws[0])
        case Err(g) => Err(g)
        case Ok(f) =>
          GeneratedFakeIsCanonical(knownFakes, draws[0]);
          assert CanonicalFake(f);
          match BuildEntries(phones[1..], knownReals, knownFakes + {f}, s, lookup, draws[1..])
          case Err(g) => Err(g)
          case Ok(b) =>
            var e := Entry(p, Some(f), New);
            assert ([e] + b.entries)[1..] == b.entries;
            ColumnsCons(Mapping(p, f), b.mappings);
            Ok(Built([e] + b.entries, [Mapping(p, f)] + b.mappings))
  }

  /** The batch insert at the end of the handler; nothing is inserted when
      every number was already known. */
  function Save(p: Prepared, b: Built, c: Conn): (r: (UploadResponse, Store))
    requires |b.mappings| <= |b.entries|
    ensures r.0.Accepted? ==> r.0.entries == b.entries && r.0.total == |b.entries|
                              && r.0.newCount == |b.mappings| && r.0.newCount + r.0.existingCount == r.0.total
    ensures r.0.Accepted? ==> r.1 == p.store.(mappings := p.store.mappings + b.mappings)
    ensures r.0.Rejected? ==> r.0.error == SaveFailed && r.1 == p.store
    ensures UniqueColumns(p.store.mappings) ==>
              (r.0.Accepted? <==> b.mappings == [] || (c.connected && !c.fault && UniqueColumns(b.mappings)
                                   && Reals(p.store.mappings) !! Reals(b.mappings)
                                   && Fakes(p.store.mappings) !! Fakes(b.mappings)))
    ensures UniqueColumns(p.store.mappings) ==> UniqueColumns(r.1.mappings)
  {
    var total := |b.entries|;
    if b.mappings == [] then
      assert p.store.mappings + b.mappings == p.store.mappings;
      (Accepted(total, 0, total, b.entries), p.store)
    else
      var (saved, s') := InsertBatch(p.store, b.mappings, c);
      if !saved then (Rejected(SaveFailed), p.store)
      else (Accepted(total, |b.mappings|, total - |b.mappings|, b.entries), s')
  }

  /** The handler once the file has yielded at least one valid number. */
  function UploadPhones(phones: seq<string>, clear: bool, s: Store, env: UploadEnv, draws: seq<seq<string>>)
    : (r: (UploadResponse, Store))
    requires DrawSupply(draws, |phones|)
    ensures r.1.calls == s.calls
    ensures UniqueColumns(s.mappings) ==> UniqueColumns(r.1.mappings)
    ensures r.0.Accepted? ==>
              && r.0.total == |r.0.entries| == |phones|
              && r.0.newCount + r.0.existingCount == r.0.total
              && forall i :: 0 <= i < |phones| ==> r.0.entries[i].realPhone == phones[i]
    ensures r.0.Accepted? ==> r.1.mappings == Prepare(clear, s, env.prepare).store.mappings + NewPairs(r.0.entries)
    ensures r.0.Rejected? ==> r.0.error in {ProcessingFailed, SaveFailed} && r.1 == Prepare(clear, s, env.prepare).store
    ensures var p := Prepare(clear, s, env.prepare);
            r.0 == Rejected(ProcessingFailed) <==> BuildEntries(phones, p.knownReals, p.knownFakes, p.store, env.lookup, draws).Err?
  {
    var p := Prepare(clear, s, env.prepare);
    match BuildEntries(phones, p.knownReals, p.knownFakes, p.store, env.lookup, draws)
    case Err(_) => (Rejected(ProcessingFailed), p.store)
    case Ok(b) => Save(p, b, env.insert)
  }

  /** upload_file from the file checks to the response. `draws` stands for
      the random generator: block i feeds the generation for the i-th parsed
      number. The uploaded file itself is removed on every path, which the
      model does not track. */
  function Upload(req: UploadRequest, s: Store, env: UploadEnv, draws: seq<seq<string>>): (r: (UploadResponse, Store))
    requires DrawSupply(draws, if req.lines.Some? then |req.lines.value| else 0)
    ensures req.filename.None? ==> r == (Rejected(NoFile), s)
    ensures req.filename == Some("") ==> r == (Rejected(NoFileSelected), s)
    ensures req.filename.Some? && req.filename.value != "" && !AllowedFile(req.filename.value) ==>
              r == (Rejected(NotCsv), s)
    ensures PassesFileChecks(req) && ParseCsvPhones(req.lines) == [] ==> r == (Rejected(NoValidPhones), s)
    ensures r.1.calls == s.calls
    ensures UniqueColumns(s.mappings) ==> UniqueColumns(r.1.mappings)
    ensures r.0.Accepted? ==>
              && PassesFileChecks(req)
              && r.0.total == |r.0.entries| == |ParseCsvPhones(req.lines)| > 0
              && r.0.newCount + r.0.existingCount == r.0.total
              && (forall i :: 0 <= i < r.0.total ==> r.0.entries[i].realPhone == ParseCsvPhones(req.lines)[i])
    ensures r.0.Accepted? && !ClearRequested(req.clearOld) ==>
              r.1.mappings == s.mappings + NewPairs(r.0.entries)
    ensures r.0.Accepted? && ClearRequested(req.clearOld) && env.prepare.connected && !env.prepare.fault ==>
              r.1.mappings == NewPairs(r.0.entries)
    ensures r.0 == Rejected(ProcessingFailed) || r.0 == Rejected(SaveFailed) ==>
              PassesFileChecks(req) && r.1 == Prepare(ClearRequested(req.clearOld), s, env.prepare).store
    ensures PassesFileChecks(req) && ParseCsvPhones(req.lines) != [] ==>
              r == UploadPhones(ParseCsvPhones(req.lines), ClearRequested(req.clearOld), s, env, draws)
  {
    match req.filename
    case None => (Rejected(NoFile), s)
    case Some(name) =>
      if name == "" then (Rejected(NoFileSelected), s)
      else if !AllowedFile(name) then (Rejected(NotCsv), s)
      else
        var phones := ParseCsvPhones(req.lines);
        if phones == [] then (Rejected(NoValidPhones), s)
        else UploadPhones(phones, ClearRequested(req.clearOld), s, env, draws)
  }

  lemma {:induction false} NewPairsMember(entries: seq<Entry>, i: nat)
    requires i < |entries| && entries[i].status == New && entries[i].fakePhone.Some?
    ensures Mapping(entries[i].realPhone, entries[i].fakePhone.value) in NewPairs(entries)
    decreases |entries|
  {
    if i > 0 {
      NewPairsMember(entries[1..], i - 1);
    }
  }

  /** Every new entry carries its generated number, so the response's `new`
      count is the number of entries marked new. */
  lemma {:induction false} NewPairsCount(entries: seq<Entry>)
    requires forall i :: 0 <= i < |entries| && entries[i].status == New ==> entries[i].fakePhone.Some?
    ensures |NewPairs(entries)| == CountNew(entries)
    decreases |entries|
  {
    if entries != [] {
      NewPairsCount(entries[1..]);
    }
  }

  lemma ConsUnique(m: Mapping, t: seq<Mapping>)
    requires UniqueColumns(t) && m.realPhone !in Reals(t) && m.fakePhone !in Fakes(t)
    ensures UniqueColumns([m] + t)
  {
    var u := [m] + t;
    forall i, j | 0 <= i < j < |u| ensures u[i].realPhone != u[j].realPhone && u[i].fakePhone != u[j].fakePhone {
      assert u[j] == t[j - 1];
      if i > 0 {
        assert u[i] == t[i - 1];
      }
    }
  }

  /** Generated numbers are pairwise distinct and, since the parsed list has
      no repeats, so are the real numbers queued for insertion. */
  lemma {:induction false} BuiltMappingsUnique(phones: seq<string>, knownReals: set<string>, knownFakes: set<string>,
                                               s: Store, lookup: Conn, draws: seq<seq<string>>)
    requires DrawSupply(draws, |phones|)
    requires NoDuplicates(phones)
    ensures var r := BuildEntries(phones, knownReals, knownFakes, s, lookup, draws);
            r.Ok? ==> UniqueColumns(r.value.mappings) && Reals(r.value.mappings) !! knownReals
    decreases |phones|
  {
    if phones != [] {
      var p := phones[0];
      var tail := phones[1..];
      assert NoDuplicates(tail) by {
        forall i, j | 0 <= i < j < |tail| ensures tail[i] != tail[j] {
          assert tail[i] == phones[i + 1] && tail[j] == phones[j + 1];
        }
      }
      if p in knownReals {
        BuiltMappingsUnique(tail, knownReals, knownFakes, s, lookup, draws[1..]);
      } else {
        var g := GenerateFakePhone(knownFakes, FakeNumberLength, FakeNumberPrefix, draws[0]);
        if g.Ok? {
          var f := g.value;
          BuiltMappingsUnique(tail, knownReals, knownFakes + {f}, s, lookup, draws[1..]);
          var rest := BuildEntries(tail, knownReals, knownFakes + {f}, s, lookup, draws[1..]);
          if rest.Ok? {
            var t := rest.value.mappings;
            assert p !in Reals(t);
            assert f !in Fakes(t);
            ConsUnique(Mapping(p, f), t);
            assert BuildEntries(phones, knownReals, knownFakes, s, lookup, draws)
                == Ok(Built([Entry(p, Some(f), New)] + rest.value.entries, [Mapping(p, f)] + t));
          }
        }
      }
    }
  }

  /** The `new` and `existing` counts of an accepted upload are the numbers
      of entries marked new and existing. */
  lemma UploadCounts(phones: seq<string>, clear: bool, s: Store, env: UploadEnv, draws: seq<seq<string>>)
    requires DrawSupply(draws, |phones|)
    ensures var r := UploadPhones(phones, clear, s, env, draws);
            r.0.Accepted? ==> r.0.newCount == CountNew(r.0.entries)
                              && r.0.existingCount == r.0.total - CountNew(r.0.entries)
  {
    var p := Prepare(clear, s, env.prepare);
    var b := BuildEntries(phones, p.knownReals, p.knownFakes, p.store, env.lookup, draws);
    if b.Ok? {
      NewPairsCount(b.value.entries);
    }
  }

  /** Without clearing, and with the table listed successfully, a number is
      reported as existing exactly when the table already holds it; existing
      numbers come with the fake number on their row, new ones with a fresh
      canonical fake number the table did not hold. */
  lemma UploadStatusAgainstTable(phones: seq<string>, s: Store, env: UploadEnv, draws: seq<seq<string>>)
    requires DrawSupply(draws, |phones|)
    requires Healthy(env.prepare) && Healthy(env.lookup)
    ensures var r := UploadPhones(phones, false, s, env, draws);
            r.0.Accepted? ==>
              forall i :: 0 <= i < |phones| ==>
                && (r.0.entries[i].status == Existing <==> phones[i] in Reals(s.mappings))
                && r.0.entries[i].fakePhone.Some?
                && (r.0.entries[i].status == Existing ==> Mapping(phones[i], r.0.entries[i].fakePhone.value) in s.mappings)
                && (r.0.entries[i].status == New ==>
                      CanonicalFake(r.0.entries[i].fakePhone.value) && r.0.entries[i].fakePhone.value !in Fakes(s.mappings))
  {
    var p := Prepare(false, s, env.prepare);
    var b := BuildEntries(phones, p.knownReals, p.knownFakes, p.store, env.lookup, draws);
    if b.Ok? {
      var e := b.value.entries;
      forall i | 0 <= i < |phones| && e[i].status == New
        ensures e[i].fakePhone.value !in Fakes(s.mappings)
      {
        NewPairsMember(e, i);
        var m := Mapping(phones[i], e[i].fakePhone.value);
        assert m.fakePhone in Fakes(b.value.mappings);
      }
    }
  }

  /** With a consistent table and a database that answers, an upload of a
      parsed list never trips the UNIQUE constraints: it is accepted unless
      the generator runs out of fresh numbers. */
  lemma UploadNeverCollides(phones: seq<string>, clear: bool, s: Store, env: UploadEnv, draws: seq<seq<string>>)
    requires DrawSupply(draws, |phones|)
    requires NoDuplicates(phones)
    requires UniqueColumns(s.mappings)
    requires Healthy(env.prepare) && Healthy(env.insert)
    ensures var r := UploadPhones(phones, clear, s, env, draws);
            r.0.Rejected? ==> r.0.error == ProcessingFailed
    ensures var r := UploadPhones(phones, clear, s, env, draws);
            var p := Prepare(clear, s, env.prepare);
            r.0.Rejected? <==> BuildEntries(phones, p.knownReals, p.knownFakes, p.store, env.lookup, draws).Err?
  {
    var p := Prepare(clear, s, env.prepare);
    BuiltMappingsUnique(phones, p.knownReals, p.knownFakes, p.store, env.lookup, draws);
    var b := BuildEntries(phones, p.knownReals, p.knownFakes, p.store, env.lookup, draws);
    if b.Ok? {
      var ms := b.value.mappings;
      assert Reals(p.store.mappings) !! Reals(ms) && Fakes(p.store.mappings) !! Fakes(ms) by {
        if clear {
          ColumnsEmpty();
        }
      }
    }
  }

  /** The fake number the generator offers first from a block of draws. */
  function FirstCandidate(block: seq<string>): string
    requires block != []
  {
    FakeNumberPrefix + block[0]
  }

  /** Every number outside `knownReals` gets, as its first candidate, a fake
      number that is neither known nor the first candidate of another such
      number. */
  predicate FirstCandidatesFresh(phones: seq<string>, knownReals: set<string>, knownFakes: set<string>,
                                 draws: seq<seq<string>>)
    requires DrawSupply(draws, |phones|)
  {
    && (forall i :: 0 <= i < |phones| && phones[i] !in knownReals ==> FirstCandidate(draws[i]) !in knownFakes)
    && (forall i, j :: 0 <= i < j < |phones| && phones[i] !in knownReals && phones[j] !in knownReals ==>
          FirstCandidate(draws[i]) != FirstCandidate(draws[j]))
  }

  /** A fresh first candidate is what the generator returns. */
  lemma GenerateTakesFreshFirst(existing: set<string>, block: seq<string>)
    requires WellFormedDraws(block, SuffixLength)
    requires FirstCandidate(block) !in existing
    ensures GenerateFakePhone(existing, FakeNumberLength, FakeNumberPrefix, block) == Ok(FirstCandidate(block))
  {
    assert FakeNumberPrefix + block[0] !in existing;
  }

  /** When the first candidates are fresh, the loop never exhausts the
      generator, and each new number gets its first candidate. */
  lemma {:induction false} BuildWithFreshFirst(phones: seq<string>, knownReals: set<string>, knownFakes: set<string>,
                                               s: Store, lookup: Conn, draws: seq<seq<string>>)
    requires DrawSupply(draws, |phones|)
    requires FirstCandidatesFresh(phones, knownReals, knownFakes, draws)
    ensures var r := BuildEntries(phones, knownReals, knownFakes, s, lookup, draws);
            && r.Ok?
            && forall i :: 0 <= i < |phones| && phones[i] !in knownReals ==>
                 r.value.entries[i] == Entry(phones[i], Some(FirstCandidate(draws[i])), New)
    decreases |phones|
  {
    if phones != [] {
      var tail, rest := phones[1..], draws[1..];
      var fakes := if phones[0] in knownReals then knownFakes else knownFakes + {FirstCandidate(draws[0])};
      assert FirstCandidatesFresh(tail, knownReals, fakes, rest) by {
        forall i | 0 <= i < |tail| && tail[i] !in knownReals
          ensures FirstCandidate(rest[i]) !in fakes
        {
          assert tail[i] == phones[i + 1] && rest[i] == draws[i + 1];
        }
        forall i, j | 0 <= i < j < |tail| && tail[i] !in knownReals && tail[j] !in knownReals
          ensures FirstCandidate(rest[i]) != FirstCandidate(rest[j])
        {
          assert tail[i] == phones[i + 1] && rest[i] == draws[i + 1];
          assert tail[j] == phones[j + 1] && rest[j] == draws[j + 1];
        }
      }
      BuildWithFreshFirst(tail, knownReals, fakes, s, lookup, rest);
      if phones[0] !in knownReals {
        GenerateTakesFreshFirst(knownFakes, draws[0]);
      }
      var b := BuildEntries(phones, knownReals, knownFakes, s, lookup, draws);
      var b' := BuildEntries(tail, knownReals, fakes, s, lookup, rest);
      assert b.value.entries[1..] == b'.value.entries;
      forall i | 0 < i < |phones| && phones[i] !in knownReals
        ensures b.value.entries[i] == Entry(phones[i], Some(FirstCandidate(draws[i])), New)
      {
        assert b.value.entries[i] == b'.value.entries[i - 1];
        assert tail[i - 1] == phones[i] && rest[i - 1] == draws[i];
      }
    }
  }

  /** With a consistent table and a database that answers, an upload whose
      first candidates are fresh against the numbers the table holds (none,
      when the table is cleared first) is accepted: every new number gets its
      first candidate and is stored next to it. */
  lemma UploadAcceptedWithFreshDraws(phones: seq<string>, clear: bool, s: Store, env: UploadEnv,
                                     draws: seq<seq<string>>)
    requires DrawSupply(draws, |phones|)
    requires NoDuplicates(phones)
    requires UniqueColumns(s.mappings)
    requires Healthy(env.prepare) && Healthy(env.insert)
    requires FirstCandidatesFresh(phones, if clear then {} else Reals(s.mappings),
                                  if clear then {} else Fakes(s.mappings), draws)
    ensures var r := UploadPhones(phones, clear, s, env, draws);
            && r.0.Accepted?
            && r.0.total == |phones|
            && forall i :: 0 <= i < |phones| && (clear || phones[i] !in Reals(s.mappings)) ==>
                 && r.0.entries[i] == Entry(phones[i], Some(FirstCandidate(draws[i])), New)
                 && Mapping(phones[i], FirstCandidate(draws[i])) in r.1.mappings
  {
    var p := Prepare(clear, s, env.prepare);
    BuildWithFreshFirst(phones, p.knownReals, p.knownFakes, p.store, env.lookup, draws);
    UploadNeverCollides(phones, clear, s, env, draws);
    var r := UploadPhones(phones, clear, s, env, draws);
    forall i | 0 <= i < |phones| && phones[i] !in p.knownReals
      ensures Mapping(phones[i], FirstCandidate(draws[i])) in r.1.mappings
    {
      NewPairsMember(r.0.entries, i);
    }
  }

  /** After an accepted upload every parsed number sits in the table next to
      the fake number the response reported for it. */
  lemma UploadStoresEntries(phones: seq<string>, s: Store, env: UploadEnv, draws: seq<seq<string>>)
    requires DrawSupply(draws, |phones|)
    requires Healthy(env.prepare) && Healthy(env.lookup)
    ensures var r := UploadPhones(phones, false, s, env, draws);
            r.0.Accepted? ==>
              forall i :: 0 <= i < |phones| ==>
                r.0.entries[i].fakePhone.Some? && Mapping(phones[i], r.0.entries[i].fakePhone.value) in r.1.mappings
  {
    var r := UploadPhones(phones, false, s, env, draws);
    UploadStatusAgainstTable(phones, s, env, draws);
    if r.0.Accepted? {
      var e := r.0.entries;
      forall i | 0 <= i < |phones|
        ensures Mapping(phones[i], e[i].fakePhone.value) in r.1.mappings
      {
        if e[i].status == New {
          NewPairsMember(e, i);
        }
      }
    }
  }

  /** When every number is already known the loop generates nothing and
      only looks the numbers up. */
  lemma BuildAllKnown(phones: seq<string>, knownReals: set<string>, knownFakes: set<string>,
                      s: Store, lookup: Conn, draws: seq<seq<string>>)
    requires DrawSupply(draws, |phones|)
    requires forall i :: 0 <= i < |phones| ==> phones[i] in knownReals
    ensures var r := BuildEntries(phones, knownReals, knownFakes, s, lookup, draws);
            r.Ok? && r.value.mappings == []
  {
    var r := BuildEntries(phones, knownReals, knownFakes, s, lookup, draws);
    assert r.Ok?;
    var ms := r.value.mappings;
    assert forall m :: m in ms ==> false;
  }

  /** An upload of numbers the table already holds is accepted with every
      entry existing and leaves the table as it was. */
  lemma UploadOfKnownNumbers(phones: seq<string>, s: Store, env: UploadEnv, draws: seq<seq<string>>)
    requires DrawSupply(draws, |phones|)
    requires Healthy(env.prepare)
    requires forall i :: 0 <= i < |phones| ==> phones[i] in Reals(s.mappings)
    ensures var r := UploadPhones(phones, false, s, env, draws);
            && r.1 == s
            && r.0.Accepted? && r.0.total == |phones| && r.0.newCount == 0 && r.0.existingCount == |phones|
            && forall i :: 0 <= i < |phones| ==>
                 r.0.entries[i].status == Existing && r.0.entries[i].fakePhone == GetFakePhone(s, phones[i], env.lookup)
  {
    var p := Prepare(false, s, env.prepare);
    BuildAllKnown(phones, p.knownReals, p.knownFakes, p.store, env.lookup, draws);
    var b := BuildEntries(phones, p.knownReals, p.knownFakes, p.store, env.lookup, draws).value;
    assert Save(p, b, env.insert) == (Accepted(|phones|, 0, |phones|, b.entries), s);
  }

  /** Uploading the same list again without clearing changes nothing: every
      number is reported as existing, with the fake number the first upload
      reported for it, and the table stays as the first upload left it. */
  lemma UploadTwiceIsStable(phones: seq<string>, s: Store, env: UploadEnv, draws1: seq<seq<string>>, draws2: seq<seq<string>>)
    requires DrawSupply(draws1, |phones|) && DrawSupply(draws2, |phones|)
    requires UniqueColumns(s.mappings)
    requires Healthy(env.prepare) && Healthy(env.lookup)
    requires UploadPhones(phones, false, s, env, draws1).0.Accepted?
    ensures var first := UploadPhones(phones, false, s, env, draws1);
            var second := UploadPhones(phones, false, first.1, env, draws2);
            && second.1 == first.1
            && second.0.Accepted? && second.0.newCount == 0 && second.0.existingCount == |phones|
            && forall i :: 0 <= i < |phones| ==>
                 second.0.entries[i].status == Existing && second.0.entries[i].fakePhone == first.0.entries[i].fakePhone
  {
    var first := UploadPhones(phones, false, s, env, draws1);
    var s1 := first.1;
    UploadStoresEntries(phones, s, env, draws1);
    forall i | 0 <= i < |phones| ensures phones[i] in Reals(s1.mappings) {
      var m := Mapping(phones[i], first.0.entries[i].fakePhone.value);
      assert m in s1.mappings;
    }
    UploadOfKnownNumbers(phones, s1, env, draws2);
    forall i | 0 <= i < |phones|
      ensures GetFakePhone(s1, phones[i], env.lookup) == first.0.entries[i].fakePhone
    {
      assert Mapping(phones[i], first.0.entries[i].fakePhone.value) in s1.mappings;
    }
  }

  /** Every queued pair comes from a new entry. */
  lemma {:induction false} NewPairsFrom(entries: seq<Entry>, m: Mapping)
    requires m in NewPairs(entries)
    ensures exists i :: 0 <= i < |entries| && entries[i].status == New
                        && entries[i].realPhone == m.realPhone && entries[i].fakePhone == Some(m.fakePhone)
    decreases |entries|
  {
    var rest := NewPairs(entries[1..]);
    if m in rest {
      NewPairsFrom(entries[1..], m);
      var i :| 0 <= i < |entries| - 1 && entries[1..][i].status == New
               && entries[1..][i].realPhone == m.realPhone && entries[1..][i].fakePhone == Some(m.fakePhone);
      assert entries[i + 1] == entries[1..][i];
    } else {
      assert entries[0].fakePhone == Some(m.fakePhone);
    }
  }

  /** An upload of parsed numbers writes only non-empty digit strings. */
  lemma UploadKeepsDigitTable(phones: seq<string>, clear: bool, s: Store, env: UploadEnv, draws: seq<seq<string>>)
    requires DrawSupply(draws, |phones|)
    requires forall i :: 0 <= i < |phones| ==> phones[i] != [] && IsDigits(phones[i])
    requires DigitTable(s.mappings)
    ensures DigitTable(UploadPhones(phones, clear, s, env, draws).1.mappings)
  {
    var r := UploadPhones(phones, clear, s, env, draws);
    var p := Prepare(clear, s, env.prepare);
    if r.0.Accepted? {
      var e := r.0.entries;
      forall m | m in NewPairs(e)
        ensures m.realPhone != [] && IsDigits(m.realPhone) && m.fakePhone != [] && IsDigits(m.fakePhone)
      {
        NewPairsFrom(e, m);
      }
      assert r.1.mappings == p.store.mappings + NewPairs(e);
    }
  }

  /** The handler as a whole keeps the table's numbers in digit-only form. */
  lemma UploadKeepsDigitTableForRequest(req: UploadRequest, s: Store, env: UploadEnv, draws: seq<seq<string>>)
    requires DrawSupply(draws, if req.lines.Some? then |req.lines.value| else 0)
    requires DigitTable(s.mappings)
    ensures DigitTable(Upload(req, s, env, draws).1.mappings)
  {
    var phones := ParseCsvPhones(req.lines);
    if PassesFileChecks(req) && phones != [] {
      forall i | 0 <= i < |phones| ensures phones[i] != [] {
        ValidIsNonEmpty(phones[i]);
        NormalizeOfDigits(phones[i]);
      }
      UploadKeepsDigitTable(phones, ClearRequested(req.clearOld), s, env, draws);
    }
  }

  // ---------------------------------------------------------------------
  // Lookups
  // ---------------------------------------------------------------------

  /** A lookup answers with the number found, or 404 when there is none. */
  datatype LookupResponse = Found(phone: string) | NotFound

  /** lookup_real: the real number behind a fake one, in whatever format the
      fake number arrives. A hit is logged in `call_logs`; a failed log does
      not change the answer. An empty stored number counts as a miss. */
  function LookupReal(fakeRaw: string, s: Store, c: Conn, log: Conn): (r: (LookupResponse, Store))
    ensures r.0.Found? ==> r.0.phone != [] && Mapping(r.0.phone, NormalizePhone(fakeRaw)) in s.mappings
    ensures UniqueColumns(s.mappings) && Healthy(c) ==>
              forall realPhone :: Mapping(realPhone, NormalizePhone(fakeRaw)) in s.mappings && realPhone != [] ==>
                r.0 == Found(realPhone)
    ensures !Healthy(c) ==> r.0 == NotFound
    ensures r.1.mappings == s.mappings
    ensures r.0.Found? && Healthy(log) ==> r.1.calls == s.calls + [CallEntry(NormalizePhone(fakeRaw), r.0.phone)]
    ensures !(r.0.Found? && Healthy(log)) ==> r.1 == s
  {
    var normalized := NormalizePhone(fakeRaw);
    match GetRealPhone(s, normalized, c)
    case None => (NotFound, s)
    case Some(realPhone) =>
      if realPhone == [] then (NotFound, s)
      else (Found(realPhone), LogCall(s, normalized, realPhone, log).1)
  }

  /** lookup_fake: the fake number given to a real one; nothing is logged. */
  function LookupFake(realRaw: string, s: Store, c: Conn): (r: LookupResponse)
    ensures r.Found? ==> r.phone != [] && Mapping(NormalizePhone(realRaw), r.phone) in s.mappings
    ensures UniqueColumns(s.mappings) && Healthy(c) ==>
              forall fakePhone :: Mapping(NormalizePhone(realRaw), fakePhone) in s.mappings && fakePhone != [] ==>
                r == Found(fakePhone)
    ensures !Healthy(c) ==> r == NotFound
  {
    match GetFakePhone(s, NormalizePhone(realRaw), c)
    case None => NotFound
    case Some(fakePhone) => if fakePhone == [] then NotFound else Found(fakePhone)
  }

  /** Both lookups see through formatting: a number and its normalised form
      get the same answer and the same log entry. */
  lemma LookupIgnoresFormatting(raw: string, s: Store, c: Conn, log: Conn)
    ensures LookupReal(raw, s, c, log) == LookupReal(NormalizePhone(raw), s, c, log)
    ensures LookupFake(raw, s, c) == LookupFake(NormalizePhone(raw), s, c)
  {
    NormalizeIdempotent(raw);
  }

  /** After an accepted upload into a consistent table, each reported fake
      number leads back to its real number and vice versa. */
  lemma LookupAfterUpload(phones: seq<string>, s: Store, env: UploadEnv, draws: seq<seq<string>>,
                          c: Conn, log: Conn, i: nat)
    requires DrawSupply(draws, |phones|)
    requires forall k :: 0 <= k < |phones| ==> phones[k] != [] && IsDigits(phones[k])
    requires UniqueColumns(s.mappings) && DigitTable(s.mappings)
    requires Healthy(env.prepare) && Healthy(env.lookup) && Healthy(c)
    requires UploadPhones(phones, false, s, env, draws).0.Accepted?
    requires i < |phones|
    ensures var r := UploadPhones(phones, false, s, env, draws);
            var f := r.0.entries[i].fakePhone;
            && f.Some?
            && LookupReal(f.value, r.1, c, log).0 == Found(phones[i])
            && LookupFake(phones[i], r.1, c) == Found(f.value)
  {
    var r := UploadPhones(phones, false, s, env, draws);
    UploadStoresEntries(phones, s, env, draws);
    UploadKeepsDigitTable(phones, false, s, env, draws);
    var f := r.0.entries[i].fakePhone.value;
    assert Mapping(phones[i], f) in r.1.mappings;
    NormalizeOfDigits(f);
    NormalizeOfDigits(phones[i]);
  }
}

=== FILE: text.dfy ===
/** Character and string helpers shared by the phone utilities, the import
    worker and the upload handler: ASCII digits, Python whitespace and
    `str.strip()`, ASCII case folding, decimal rendering of counters, and
    splitting/joining text on a separator character. */
module Text {
  import opened Wrappers

  predicate IsDigit(c: char) {
    '0' <= c <= '9'
  }

  predicate IsDigits(s: string) {
    forall i :: 0 <= i < |s| ==> IsDigit(s[i])
  }

  /** No element occurs twice. */
  predicate NoDuplicates<T(==)>(s: seq<T>) {
    forall i, j :: 0 <= i < j < |s| ==> s[i] != s[j]
  }

  /** The characters for which Python's `str.isspace()` holds, which are
      exactly the characters `str.strip()` removes when given no argument. */
  predicate IsSpace(c: char) {
    || c == ' '
    || '\t' <= c <= '\r'
    || '\U{1c}' <= c <= '\U{1f}'
    || c == '\U{85}'
    || c == '\U{a0}'
    || c == '\U{1680}'
    || '\U{2000}' <= c <= '\U{200a}'
    || c == '\U{2028}'
    || c == '\U{2029}'
    || c == '\U{202f}'
    || c == '\U{205f}'
    || c == '\U{3000}'
  }

  predicate AllSpace(s: string) {
    forall i :: 0 <= i < |s| ==> IsSpace(s[i])
  }

  /** Python's `str.lstrip()` without argument. */
  function StripLeading(s: string): (r: string)
    ensures |r| <= |s|
    ensures r != [] ==> !IsSpace(r[0])
  {
    if s != [] && IsSpace(s[0]) then StripLeading(s[1..]) else s
  }

  /** `lstrip` returns a suffix of its argument. */
  lemma {:induction false} StripLeadingSuffix(s: string)
    ensures StripLeading(s) == s[|s| - |StripLeading(s)|..]
    decreases |s|
  {
    if s != [] && IsSpace(s[0]) {
      StripLeadingSuffix(s[1..]);
    }
  }

  /** Python's `str.rstrip()` without argument. */
  function StripTrailing(s: string): (r: string)
    ensures |r| <= |s|
    ensures r != [] ==> !IsSpace(r[|r| - 1])
  {
    if s != [] && IsSpace(s[|s| - 1]) then StripTrailing(s[..|s| - 1]) else s
  }

  /** `rstrip` returns a prefix of its argument. */
  lemma {:induction false} StripTrailingPrefix(s: string)
    ensures StripTrailing(s) == s[..|StripTrailing(s)|]
    decreases |s|
  {
    if s != [] && IsSpace(s[|s| - 1]) {
      StripTrailingPrefix(s[..|s| - 1]);
    }
  }

  /** Python's `str.strip()` without argument: `s` minus its leading and
      trailing whitespace. */
  function Strip(s: string): (r: string)
    ensures |r| <= |s|
    ensures r != [] ==> !IsSpace(r[0]) && !IsSpace(r[|r| - 1])
  {
    var t := StripLeading(s);
    StripTrailingPrefix(t);
    StripTrailing(t)
  }

  /** What `lstrip` removes is whitespace. */
  lemma {:induction false} StripLeadingRemovesSpace(s: string)
    ensures AllSpace(s[..|s| - |StripLeading(s)|])
    decreases |s|
  {
    if s != [] && IsSpace(s[0]) {
      StripLeadingRemovesSpace(s[1..]);
      var k := |s| - |StripLeading(s)|;
      assert s[..k] == [s[0]] + s[1..][..k - 1];
    }
  }

  /** What `rstrip` removes is whitespace. */
  lemma {:induction false} StripTrailingRemovesSpace(s: string)
    ensures AllSpace(s[|StripTrailing(s)|..])
    decreases |s|
  {
    if s != [] && IsSpace(s[|s| - 1]) {
      var t := s[..|s| - 1];
      StripTrailingRemovesSpace(t);
      var k := |StripTrailing(s)|;
      assert s[k..] == t[k..] + [s[|s| - 1]];
    }
  }

  /** `s` is what `strip` removes in front, the stripped text, and what it
      removes at the back. */
  lemma StripShape(s: string)
    ensures var a := |s| - |StripLeading(s)|;
            var r := Strip(s);
            a + |r| <= |s| && s == s[..a] + r + s[a + |r|..]
  {
    var t := StripLeading(s);
    var a := |s| - |t|;
    var r := Strip(s);
    StripLeadingSuffix(s);
    StripTrailingPrefix(t);
    SliceOfSuffix(s, a, |r|);
    SliceThree(s, a, a + |r|);
  }

  lemma SliceOfSuffix(s: string, a: nat, n: nat)
    requires a + n <= |s|
    ensures s[a..][..n] == s[a..a + n]
  {
  }

  lemma SliceThree(s: string, a: nat, b: nat)
    requires a <= b <= |s|
    ensures s == s[..a] + s[a..b] + s[b..]
  {
    assert s == s[..a] + s[a..];
    assert s[a..] == s[a..b] + s[b..];
  }

  /** What `strip` removes, in front and at the back, is whitespace. */
  lemma StripRemovesSpace(s: string)
    ensures var a := |s| - |StripLeading(s)|;
            var r := Strip(s);
            a + |r| <= |s| && AllSpace(s[..a]) && AllSpace(s[a + |r|..])
  {
    var t := StripLeading(s);
    var a := |s| - |t|;
    var r := Strip(s);
    StripLeadingSuffix(s);
    StripTrailingPrefix(t);
    StripLeadingRemovesSpace(s);
    StripTrailingRemovesSpace(t);
    assert t[|r|..] == s[a + |r|..];
  }

  /** An all-whitespace text `lstrip`s to nothing, and only such a text does. */
  lemma {:induction false} StripLeadingBlank(s: string)
    ensures StripLeading(s) == [] <==> AllSpace(s)
    decreases |s|
  {
    if s != [] {
      StripLeadingBlank(s[1..]);
      assert AllSpace(s) <==> IsSpace(s[0]) && AllSpace(s[1..]) by {
        if IsSpace(s[0]) && AllSpace(s[1..]) {
          forall i | 0 <= i < |s| ensures IsSpace(s[i]) {
            if i > 0 {
              assert s[i] == s[1..][i - 1];
            }
          }
        }
      }
    }
  }

  /** Stripping leaves nothing exactly when `s` is all whitespace. */
  lemma StripBlank(s: string)
    ensures Strip(s) == [] <==> AllSpace(s)
  {
    StripLeadingBlank(s);
    var t := StripLeading(s);
    if t != [] {
      StripTrailingRemovesSpace(t);
      assert !AllSpace(t);
      assert t[0..] == t;
    }
  }

  /** ASCII lower-casing of one character. */
  function LowerChar(c: char): (d: char)
    ensures 'A' <= c <= 'Z' ==> 'a' <= d <= 'z'
    ensures !('A' <= c <= 'Z') ==> d == c
  {
    if 'A' <= c <= 'Z' then (c as int - 'A' as int + 'a' as int) as char else c
  }

  /** ASCII lower-casing of a string, character by character. */
  function Lower(s: string): (r: string)
    ensures |r| == |s|
    ensures forall i :: 0 <= i < |s| ==> r[i] == LowerChar(s[i])
  {
    if s == [] then [] else [LowerChar(s[0])] + Lower(s[1..])
  }

  /** Position of the first occurrence of `c` in `s`. */
  function IndexOf(s: string, c: char): (r: Option<nat>)
    ensures r.Some? ==> r.value < |s| && s[r.value] == c && c !in s[..r.value]
    ensures r.None? <==> c !in s
  {
    if s == [] then None
    else if s[0] == c then Some(0)
    else
      match IndexOf(s[1..], c)
      case None => None
      case Some(k) =>
        assert s[..k + 1] == [s[0]] + s[1..][..k];
        Some(k + 1)
  }

  function DigitChar(d: nat): (c: char)
    requires d < 10
    ensures IsDigit(c)
  {
    ('0' as int + d) as char
  }

  /** The number written by a string of decimal digits. */
  function DecimalValue(s: string): nat
    requires IsDigits(s)
  {
    if s == [] then 0
    else 10 * DecimalValue(s[..|s| - 1]) + (s[|s| - 1] as int - '0' as int)
  }

  /** Python's `str(n)` for a non-negative integer. */
  function NatToString(n: nat): (s: string)
    ensures |s| >= 1 && IsDigits(s)
    ensures DecimalValue(s) == n
    ensures s[0] == '0' ==> n == 0
    decreases n
  {
    if n < 10 then [DigitChar(n)]
    else
      var s := NatToString(n / 10) + [DigitChar(n % 10)];
      assert s[..|s| - 1] == NatToString(n / 10);
      s
  }

  /** Python's `sep.join(parts)` for a one-character separator. */
  function Join(parts: seq<string>, sep: char): string
  {
    if |parts| == 0 then []
    else if |parts| == 1 then parts[0]
    else parts[0] + [sep] + Join(parts[1..], sep)
  }

  /** Python's `s.split(sep)` for a one-character separator. */
  function Split(s: string, sep: char): (parts: seq<string>)
    ensures |parts| >= 1
  {
    if s == [] then [[]]
    else
      var rest := Split(s[1..], sep);
      if s[0] == sep then [[]] + rest else [[s[0]] + rest[0]] + rest[1..]
  }

  lemma {:induction false} SplitNoSeparator(a: string, sep: char)
    requires sep !in a
    ensures Split(a, sep) == [a]
    decreases |a|
  {
    if a != [] {
      SplitNoSeparator(a[1..], sep);
      assert [a[0]] + a[1..] == a;
    }
  }

  lemma {:induction false} SplitAtSeparator(a: string, sep: char, b: string)
    requires sep !in a
    ensures Split(a + [sep] + b, sep) == [a] + Split(b, sep)
    decreases |a|
  {
    if a == [] {
      assert a + [sep] + b == [sep] + b;
      assert ([sep] + b)[1..] == b;
    } else {
      var s := a + [sep] + b;
      assert s[0] == a[0];
      assert s[1..] == a[1..] + [sep] + b;
      SplitAtSeparator(a[1..], sep, b);
      assert [a[0]] + a[1..] == a;
    }
  }

  /** Splitting a joined text on the separator gives the parts back, as long
      as no part contains the separator itself. */
  lemma {:induction false} SplitJoin(parts: seq<string>, sep: char)
    requires |parts| >= 1
    requires forall i :: 0 <= i < |parts| ==> sep !in parts[i]
    ensures Split(Join(parts, sep), sep) == parts
    decreases |parts|
  {
    if |parts| == 1 {
      SplitNoSeparator(parts[0], sep);
    } else {
      SplitJoin(parts[1..], sep);
      SplitAtSeparator(parts[0], sep, Join(parts[1..], sep));
      assert [parts[0]] + parts[1..] == parts;
    }
  }
}

=== FILE: utils.dfy ===
/** The pure phone helpers of app/utils.py: normalisation, validation, the
    fake-number generator, the line-by-line phone-list parser and the upload
    file-extension check. */
module Utils {
  import opened Wrappers
  import opened Text

  // ---------------------------------------------------------------------
  // Normalisation and validation
  // ---------------------------------------------------------------------

  /** normalize_phone: the digits of `s`, in their original order. */
  function NormalizePhone(s: string): (r: string)
    ensures IsDigits(r)
    ensures |r| <= |s|
  {
    if s == [] then []
    else (if IsDigit(s[0]) then [s[0]] else []) + NormalizePhone(s[1..])
  }

  /** Normalisation works piecewise: it distributes over concatenation. */
  lemma {:induction false} NormalizeAppend(a: string, b: string)
    ensures NormalizePhone(a + b) == NormalizePhone(a) + NormalizePhone(b)
    decreases |a|
  {
    if a != [] {
      assert (a + b)[0] == a[0];
      assert (a + b)[1..] == a[1..] + b;
      NormalizeAppend(a[1..], b);
    } else {
      assert a + b == b;
    }
  }

  /** A single character survives normalisation exactly when it is a digit. */
  lemma NormalizeChar(c: char)
    ensures NormalizePhone([c]) == if IsDigit(c) then [c] else []
  {
    assert [c][1..] == [];
  }

  /** Every digit of the input is kept, as many times as it occurs, and
      nothing else is: the multiset of the result is the input's digits. */
  lemma {:induction false} NormalizeKeepsDigits(s: string)
    ensures forall c :: IsDigit(c) ==> multiset(NormalizePhone(s))[c] == multiset(s)[c]
    ensures forall c :: !IsDigit(c) ==> multiset(NormalizePhone(s))[c] == 0
    decreases |s|
  {
    if s != [] {
      NormalizeKeepsDigits(s[1..]);
      assert s == [s[0]] + s[1..];
      assert multiset(s) == multiset([s[0]]) + multiset(s[1..]);
    }
  }

  /** A digit-only string is its own normal form. */
  lemma {:induction false} NormalizeOfDigits(s: string)
    requires IsDigits(s)
    ensures NormalizePhone(s) == s
    decreases |s|
  {
    if s != [] {
      NormalizeOfDigits(s[1..]);
      assert [s[0]] + s[1..] == s;
    }
  }

  /** Normalisation is idempotent. */
  lemma NormalizeIdempotent(s: string)
    ensures NormalizePhone(NormalizePhone(s)) == NormalizePhone(s)
  {
    NormalizeOfDigits(NormalizePhone(s));
  }

  /** A string without digits normalises to the empty string. */
  lemma {:induction false} NormalizeNoDigits(s: string)
    requires forall k :: 0 <= k < |s| ==> !IsDigit(s[k])
    ensures NormalizePhone(s) == []
    decreases |s|
  {
    if s != [] {
      NormalizeNoDigits(s[1..]);
    }
  }

  /** Leading whitespace holds no digits. */
  lemma {:induction false} NormalizeStripLeading(s: string)
    ensures NormalizePhone(StripLeading(s)) == NormalizePhone(s)
    decreases |s|
  {
    if s != [] && IsSpace(s[0]) {
      NormalizeStripLeading(s[1..]);
    }
  }

  /** Trailing whitespace holds no digits. */
  lemma {:induction false} NormalizeStripTrailing(s: string)
    ensures NormalizePhone(StripTrailing(s)) == NormalizePhone(s)
    decreases |s|
  {
    if s != [] && IsSpace(s[|s| - 1]) {
      var t := s[..|s| - 1];
      NormalizeStripTrailing(t);
      assert s == t + [s[|s| - 1]];
      NormalizeAppend(t, [s[|s| - 1]]);
      NormalizeChar(s[|s| - 1]);
    }
  }

  /** Stripping whitespace before normalising changes nothing. */
  lemma NormalizeStrip(s: string)
    ensures NormalizePhone(Strip(s)) == NormalizePhone(s)
  {
    NormalizeStripLeading(s);
    NormalizeStripTrailing(StripLeading(s));
  }

  const MinPhoneDigits := 10
  const MaxPhoneDigits := 15

  /** validate_phone: the number of digits of `p` is within [10, 15]. */
  predicate ValidatePhone(p: string) {
    var normalized := NormalizePhone(p);
    if |normalized| < MinPhoneDigits then false
    else if |normalized| > MaxPhoneDigits then false
    else true
  }

  /** Validation looks only at the digits: formatting characters neither
      make a number valid nor invalid. */
  lemma ValidateIgnoresFormatting(s: string)
    ensures ValidatePhone(s) == ValidatePhone(NormalizePhone(s))
    ensures ValidatePhone(s) <==> MinPhoneDigits <= |NormalizePhone(s)| <= MaxPhoneDigits
  {
    NormalizeIdempotent(s);
  }

  /** A valid phone number is never empty once normalised. */
  lemma ValidIsNonEmpty(s: string)
    requires ValidatePhone(s)
    ensures NormalizePhone(s) != []
  {
  }

  /** Stripping a cell before normalising and validating it, as the importer
      does, gives the same verdict as validating the raw cell; a blank cell
      is never valid. */
  lemma StrippedCellValidity(s: string)
    ensures NormalizePhone(Strip(s)) == NormalizePhone(s)
    ensures ValidatePhone(NormalizePhone(Strip(s))) == ValidatePhone(s)
    ensures Strip(s) == [] ==> !ValidatePhone(s)
  {
    NormalizeStrip(s);
    NormalizeIdempotent(s);
  }

  // ---------------------------------------------------------------------
  // Fake-number generation
  // ---------------------------------------------------------------------

  /** Config.FAKE_NUMBER_LENGTH and Config.FAKE_NUMBER_PREFIX. */
  const FakeNumberLength: int := 15
  const FakeNumberPrefix: string := "7"

  /** The retry budget of generate_fake_phone. */
  const MaxAttempts: nat := 1000

  /** Number of random digits after the prefix; `random.choices` with a
      negative `k` draws nothing. */
  function RemainingLength(length: int, prefix: string): nat
  {
    if length > |prefix| then length - |prefix| else 0
  }

  /** What `random.choices(string.digits, k=remaining)` hands out over the
      whole retry budget: MaxAttempts digit strings of length `remaining`. */
  predicate WellFormedDraws(draws: seq<string>, remaining: nat) {
    && |draws| == MaxAttempts
    && forall i :: 0 <= i < |draws| ==> |draws[i]| == remaining && IsDigits(draws[i])
  }

  /** The first candidate `prefix + draws[i]` that is not in `existing`. */
  function FirstFresh(existing: set<string>, prefix: string, draws: seq<string>): (r: Option<nat>)
    ensures r.Some? ==> r.value < |draws| && prefix + draws[r.value] !in existing
    ensures r.Some? ==> forall j :: 0 <= j < r.value ==> prefix + draws[j] in existing
    ensures r.None? <==> forall j :: 0 <= j < |draws| ==> prefix + draws[j] in existing
  {
    if draws == [] then None
    else if prefix + draws[0] !in existing then Some(0)
    else
      match FirstFresh(existing, prefix, draws[1..])
      case None => None
      case Some(k) => Some(k + 1)
  }

  datatype GenError = Exhausted(attempts: nat)

  /** generate_fake_phone, with the random suffixes of its attempts supplied
      as `draws`. It never mutates `existing` (a value here). */
  function GenerateFakePhone(existing: set<string>, length: int, prefix: string, draws: seq<string>)
    : (r: Result<string, GenError>)
    requires WellFormedDraws(draws, RemainingLength(length, prefix))
    ensures r.Ok? ==> r.value !in existing
    ensures r.Ok? ==> |r.value| == |prefix| + RemainingLength(length, prefix)
    ensures r.Ok? ==> r.value[..|prefix|] == prefix && IsDigits(r.value[|prefix|..])
    ensures r.Ok? ==> exists i :: 0 <= i < MaxAttempts && r.value == prefix + draws[i]
                                  && forall j :: 0 <= j < i ==> prefix + draws[j] in existing
    ensures r.Err? <==> forall i :: 0 <= i < MaxAttempts ==> prefix + draws[i] in existing
    ensures r.Err? ==> r.error == Exhausted(MaxAttempts)
  {
    match FirstFresh(existing, prefix, draws)
    case None => Err(Exhausted(MaxAttempts))
    case Some(i) =>
      var candidate := prefix + draws[i];
      assert candidate[|prefix|..] == draws[i];
      Ok(candidate)
  }

  /** With the configured constants, a generated fake number is a canonical
      15-digit phone number starting with 7. */
  lemma GeneratedFakeIsCanonical(existing: set<string>, draws: seq<string>)
    requires WellFormedDraws(draws, RemainingLength(FakeNumberLength, FakeNumberPrefix))
    ensures var r := GenerateFakePhone(existing, FakeNumberLength, FakeNumberPrefix, draws);
            r.Ok? ==> |r.value| == 15 && r.value[0] == '7' && IsDigits(r.value) && ValidatePhone(r.value)
  {
    var r := GenerateFakePhone(existing, FakeNumberLength, FakeNumberPrefix, draws);
    if r.Ok? {
      var v := r.value;
      assert v == v[..1] + v[1..];
      assert IsDigits(v);
      NormalizeOfDigits(v);
    }
  }

  // ---------------------------------------------------------------------
  // parse_csv_phones
  // ---------------------------------------------------------------------

  /** One iteration of the loop of parse_csv_phones: strip the line, skip it
      when blank, keep its normal form when that is valid. */
  function LinePhone(line: string): (r: Option<string>)
    ensures r.Some? ==> IsDigits(r.value) && ValidatePhone(r.value)
  {
    var phone := Strip(line);
    if phone == [] then None
    else
      var normalized := NormalizePhone(phone);
      if ValidatePhone(normalized) then Some(normalized) else None
  }

  /** The loop of parse_csv_phones, before duplicates are dropped. */
  function CollectPhones(lines: seq<string>): (r: seq<string>)
    ensures |r| <= |lines|
    ensures forall i :: 0 <= i < |r| ==> IsDigits(r[i]) && ValidatePhone(r[i])
  {
    if lines == [] then []
    else
      match LinePhone(lines[0])
      case None => CollectPhones(lines[1..])
      case Some(p) => [p] + CollectPhones(lines[1..])
  }

  /** A number is collected exactly when some line normalises to it and it
      is valid; stripping and the blank-line skip make no difference. */
  lemma {:induction false} CollectPhonesExact(lines: seq<string>, p: string)
    ensures p in CollectPhones(lines) <==>
            exists i :: 0 <= i < |lines| && p == NormalizePhone(lines[i]) && ValidatePhone(p)
  {
    CollectPhonesMembers(lines, p);
    forall i | 0 <= i < |lines| {
      LinePhoneExact(lines[i]);
    }
  }

  /** The phones of a line followed by more lines. */
  lemma CollectPhonesCons(line: string, rest: seq<string>)
    ensures CollectPhones([line] + rest) ==
            (if LinePhone(line).Some? then [LinePhone(line).value] else []) + CollectPhones(rest)
  {
    assert ([line] + rest)[0] == line;
    assert ([line] + rest)[1..] == rest;
  }

  lemma {:induction false} CollectPhonesMembers(lines: seq<string>, p: string)
    ensures p in CollectPhones(lines) <==> exists i :: 0 <= i < |lines| && LinePhone(lines[i]) == Some(p)
    decreases |lines|
  {
    if lines != [] {
      var rest := lines[1..];
      assert lines == [lines[0]] + rest;
      CollectPhonesCons(lines[0], rest);
      CollectPhonesMembers(rest, p);
      if exists i :: 0 <= i < |lines| && LinePhone(lines[i]) == Some(p) {
        var i :| 0 <= i < |lines| && LinePhone(lines[i]) == Some(p);
        if i > 0 {
          assert rest[i - 1] == lines[i];
        }
      }
      if exists i :: 0 <= i < |rest| && LinePhone(rest[i]) == Some(p) {
        var i :| 0 <= i < |rest| && LinePhone(rest[i]) == Some(p);
        assert lines[i + 1] == rest[i];
      }
    }
  }

  /** A line yields its normal form exactly when that is valid. */
  lemma LinePhoneExact(line: string)
    ensures LinePhone(line) == if ValidatePhone(NormalizePhone(line)) then Some(NormalizePhone(line)) else None
  {
    NormalizeStrip(line);
    var phone := Strip(line);
    NormalizeIdempotent(phone);
  }

  /** `list(set(phones))`: each element once. Python leaves the order to the
      set's iteration; this keeps first occurrences in input order. */
  function Dedup(s: seq<string>): (r: seq<string>)
    ensures NoDuplicates(r)
    ensures forall x :: x in r <==> x in s
    ensures |r| <= |s|
  {
    if s == [] then []
    else
      var rest := Dedup(s[..|s| - 1]);
      assert forall x :: x in s <==> x in s[..|s| - 1] || x == s[|s| - 1];
      if s[|s| - 1] in rest then rest else rest + [s[|s| - 1]]
  }

  /** parse_csv_phones over the lines of the file; `None` stands for a file
      that could not be opened or decoded, which yields no phones. */
  function ParseCsvPhones(content: Option<seq<string>>): (r: seq<string>)
    ensures NoDuplicates(r)
    ensures forall i :: 0 <= i < |r| ==> IsDigits(r[i]) && ValidatePhone(r[i])
    ensures content.None? ==> r == []
    ensures content.Some? ==> |r| <= |content.value|
    ensures content.Some? ==> forall p ::
              p in r <==> exists i :: 0 <= i < |content.value| && p == NormalizePhone(content.value[i]) && ValidatePhone(p)
  {
    match content
    case None => []
    case Some(lines) =>
      var r := Dedup(CollectPhones(lines));
      assert forall p :: p in r <==> p in CollectPhones(lines);
      assert forall i :: 0 <= i < |r| ==> r[i] in CollectPhones(lines);
      forall p ensures p in r <==> exists i :: 0 <= i < |lines| && p == NormalizePhone(lines[i]) && ValidatePhone(p) {
        CollectPhonesExact(lines, p);
      }
      r
  }

  /** A line that is blank after stripping contributes nothing. */
  lemma {:induction false} BlankLineIgnored(before: seq<string>, blank: string, after: seq<string>)
    requires Strip(blank) == []
    ensures CollectPhones(before + [blank] + after) == CollectPhones(before + after)
    decreases |before|
  {
    var with := before + [blank] + after;
    var without := before + after;
    if before == [] {
      assert with == [blank] + after;
      CollectPhonesCons(blank, after);
      assert without == after;
    } else {
      BlankLineIgnored(before[1..], blank, after);
      assert with == [before[0]] + (before[1..] + [blank] + after);
      assert without == [before[0]] + (before[1..] + after);
      CollectPhonesCons(before[0], before[1..] + [blank] + after);
      CollectPhonesCons(before[0], before[1..] + after);
    }
  }

  // ---------------------------------------------------------------------
  // allowed_file
  // ---------------------------------------------------------------------

  /** Config.ALLOWED_EXTENSIONS. */
  const AllowedExtensions: set<string> := {"csv"}

  /** Position of the last '.' of `f`, the split point of `f.rsplit('.', 1)`. */
  function LastDot(f: string): (r: Option<nat>)
    ensures r.Some? ==> r.value < |f| && f[r.value] == '.'
    ensures r.Some? ==> forall j :: r.value < j < |f| ==> f[j] != '.'
    ensures r.None? <==> '.' !in f
  {
    if f == [] then None
    else if f[|f| - 1] == '.' then Some(|f| - 1)
    else
      var r := LastDot(f[..|f| - 1]);
      assert r.None? ==> '.' !in f[..|f| - 1];
      assert f == f[..|f| - 1] + [f[|f| - 1]];
      r
  }

  /** `i` is the position of the last '.' of `f`. */
  predicate ExtensionDot(f: string, i: int) {
    0 <= i < |f| && f[i] == '.' && forall j :: i < j < |f| ==> f[j] != '.'
  }

  /** Only one position holds the last '.'. */
  lemma ExtensionDotUnique(f: string, i: int, k: int)
    requires ExtensionDot(f, i) && ExtensionDot(f, k)
    ensures i == k
  {
  }

  /** The extension `ext`, in lower case, is an allowed one. */
  predicate AllowedExtension(ext: string) {
    Lower(ext) in AllowedExtensions
  }

  /** allowed_file: `f` has an extension, the text after its last '.', and
      that extension in lower case is an allowed one. */
  function AllowedFile(f: string): (ok: bool)
    ensures ok <==> exists i :: ExtensionDot(f, i) && AllowedExtension(f[i + 1..])
  {
    match LastDot(f)
    case None =>
      false
    case Some(i) =>
      assert ExtensionDot(f, i);
      assert forall k :: ExtensionDot(f, k) ==> k == i by {
        forall k | ExtensionDot(f, k) ensures k == i {
          ExtensionDotUnique(f, i, k);
        }
      }
      AllowedExtension(f[i + 1..])
  }
}

=== FILE: wrappers.dfy ===
/** Failure-carrying values shared by every module of the model. */
module Wrappers {

  /** A value that may be missing: Python's `None` or a present value. */
  datatype Option<+T> = None | Some(value: T)

  /** The outcome of an operation that either produces a value or raises. */
  datatype Result<+T, +E> = Ok(value: T) | Err(error: E)
}
